=== FILE: README.md ===
# Near-Earth object query pipeline, modelled in Dafny

This project models the query pipeline of the near-Earth object (NEO) explorer:

- `starter/models.py`: the `NearEarthObject` and `OrbitPath` records.
- `starter/database.py`: the `NEODatabase` that loads them from CSV rows into two dictionaries:
  - a name index, from each name to the one object of that name;
  - a date index, from each close-approach date to the list of objects seen that day.
- `starter/search.py`:
  - `Query.build_query`, which turns keyword arguments into selectors;
  - `Filter.create_filter_options` and `Filter.apply`;
  - `NEOSearcher.get_objects` and its helpers, which select by date, filter, take orbit paths back to their objects, remove duplicates and cut the result to the requested number.

Modules:

- `Wrappers`: `Option` and `Result`.
- `Text`: Python's `<` and `<=` on `str`, `str.split` and `str.join`, with their order and round-trip lemmas.
- `Models`: the two classes.
  - An `OrbitPath` is a class, because Python's `set()` removes duplicates by identity.
  - A `NearEarthObject` is a class whose `orbits` list `UpdateOrbits` appends to in place.
- `CatalogLoad`: the catalogue as a value, and `AddRows`, the fold over the rows that `load_data` performs. The catalogue invariant and the properties of the load are proved about this fold.
- `Database`: the `NEODatabase` class. It holds the name index as a `map` field and the date index as a `DateIndex`, which is a Python dict: the keys in insertion order plus a map. Each method is proved to follow the `CatalogLoad` fold.
- `Filters`: the `Options` and `Operators` tables, and `Filter.apply` as a loop proved against a fold.
- `Queries`: grouping of filter options by record kind, parsing of each option at `:`, and `build_query`.
- `Searcher`: the `NEOSearcher` class and its static search helpers, each loop proved against a function. `get_objects` is proved against `Pools`, which says which objects and paths survive the date search and the filters.

Attribute values are kept as the cell text of the row, or the text of the default when the column is missing. `Filter.apply` compares `str(value)` with `str(self.value)`, so every comparison in the model is Python's lexicographic order on strings, as in the code. `float()` on a cell is not modelled (see "Left out").

Python raises an exception in the following cases. The model returns an error value instead, and each case is proved to be the exact condition for that error:

- a range bound of `None` that gets compared;
- a filter field that is not in `Options`;
- an option without `:`;
- an operator that is not in `Operators`;
- a row without `name` or without `close_approach_date`.

The `ValueError` that `float()` raises on a diameter or distance cell that is not a number is not one of these; see "Left out".

Where the code and its documentation disagree, the model follows the code:

- A filter option naming an unknown field makes `build_query` raise: `hasattr` is called with `None`. It is not silently dropped.
- An unknown `return_object` gives objects, not an error: `ReturnObjects.get` gives `None`.
- A CSV row that fails part-way leaves the earlier rows loaded. A row with a name but no date also keeps its registered object and appended orbit, because the `KeyError` comes after both.
- `load_data` without any file name raises before touching the database. Here this is the outcome `NoSource`, with nothing changed.

## Model

| member | source | states |
|---|---|---|
| Text.LessIrreflexive | starter/search.py:222 | no string is below itself |
| Text.LessAsymmetric | starter/search.py:222 | two strings are never each below the other |
| Text.LessTotal | starter/search.py:141 | any two strings are equal or one is below the other |
| Text.LessTransitive | starter/search.py:222 | string order is transitive |
| Text.LessEqAntisymmetric | starter/search.py:222 | `a <= b <= a` only when `a == b` |
| Text.GreaterEqIsNotLess | starter/search.py:90 | `a >= b` holds exactly when `a < b` does not |
| Text.Split | starter/search.py:67-68 | `split(':')` yields at least one piece, none holding `:`, and joining the pieces with `:` gives back the input |
| Text.SplitJoin | starter/search.py:67-68 | splitting pieces joined by `:` gives the pieces back when none holds `:` |
| Text.SplitPieces | starter/search.py:68 | the split has a second piece, the operator, exactly when `:` occurs in the option |
| Models.PathOf | starter/models.py:52-54 | a path takes its object's name from `name` and its date from `close_approach_date`, absent when the column is |
| Models.NeoOf | starter/models.py:13-18 | a new object has the row's name and no orbits; a row without the hazard flag gives `False`, one without a diameter gives `0.0` |
| Models.OrbitPath.constructor | starter/models.py:47-54 | each field is the row's cell or its default |
| Models.NearEarthObject.constructor | starter/models.py:8-18 | each attribute is the row's cell or its default; the orbit list starts empty |
| Models.NearEarthObject.UpdateOrbits | starter/models.py:20-29 | the orbit is appended to the list; the earlier orbits and all attributes stay |
| CatalogLoad.AddRow | starter/database.py:45-58 | one row fails exactly when it lacks `name` or `close_approach_date`, and the failure names that row |
| CatalogLoad.AddRowsFailure | starter/database.py:45-58 | loading fails exactly when some row is malformed, and it stops at the first such row, all rows before it being well formed |
| CatalogLoad.AddRowsStops | starter/database.py:45-58 | rows after the failing one have no effect |
| CatalogLoad.AddRowsKeys | starter/database.py:48-49 | after a load in which every row has a name and a date, the name index holds the earlier names plus exactly the names of the rows |
| CatalogLoad.AddRowsOrbits | starter/database.py:46-53 | after a load in which every row has a name and a date, each object's orbits are its earlier orbits followed by one path per row of its name, in row order |
| CatalogLoad.AddRowsKeepAttributes | starter/database.py:48-49 | after a load in which every row has a name and a date, an object already present keeps its attributes: a later row never replaces it |
| CatalogLoad.AddRowsNewAttributes | starter/database.py:48-49 | after a load in which every row has a name and a date, a new object takes its attributes from the first row carrying its name |
| CatalogLoad.AddRowNeos | starter/database.py:48-53 | one row replaces only the entry of its own name, with that object plus one orbit |
| CatalogLoad.AddRowsDateKeys | starter/database.py:55-56 | after a load in which every row has a name and a date, the date index holds the earlier dates plus exactly the dates of the rows |
| CatalogLoad.AddRowsDates | starter/database.py:55-58 | after a load in which every row has a name and a date, each date's list is its earlier list followed by the names of the rows of that date, in row order |
| CatalogLoad.AddRowBucket | starter/database.py:55-58 | one row adds its date if new and appends its name to that date only |
| CatalogLoad.AddRowsDatesPrefix | starter/database.py:55-58 | dates already listed keep their place; new dates are added at the end |
| CatalogLoad.AddRowKeeps | starter/database.py:45-58 | one row keeps the catalogue invariant, whether or not it fails: distinct date keys, every listed name registered, every object under its own name and owning its orbits |
| CatalogLoad.AddRowCounts | starter/database.py:58 | a well-formed row adds exactly one entry to the date lists |
| CatalogLoad.AddRowsConsistent | starter/database.py:45-58 | a whole load keeps the catalogue invariant, including one that stops at a bad row |
| CatalogLoad.AddRowsTotal | starter/database.py:58 | the date lists together grow by one entry per row loaded |
| CatalogLoad.EmptyConsistent | starter/database.py:20-22 | the fresh, empty catalogue satisfies the invariant and holds no entries |
| Database.FiledMembers | starter/database.py:55-58 | after filing, every listed object is the filed one or one listed before at the same place |
| Database.FiledModel | starter/database.py:55-58 | filing, seen through the objects' names, is the date step of the catalogue fold |
| Database.GrownInSteps | starter/database.py:46-53 | registering the object, then appending the orbit, gives the name-index step of the catalogue fold |
| Database.OrbitNamesHolder | starter/database.py:48-53 | in a consistent catalogue every orbit of a registered object carries that object's name, so looking the path's name up gives back the object holding it |
| Database.DistinctSetSize | starter/search.py:203 | `set()` of a list of pairwise distinct elements has as many elements as the list |
| Database.OrbitSetSize | starter/database.py:46-53 | each row loaded for a name adds a path object of its own, so `set()` over an object's orbits keeps one path per row, even when rows are equal |
| Database.NEODatabase.constructor | starter/database.py:14-22 | both indexes start empty; the catalogue is the empty one and satisfies the invariant; no object lists one path twice |
| Database.NEODatabase.Register | starter/database.py:48-51 | the object of the row's name is created and registered on first sight; an existing one is returned unchanged |
| Database.NEODatabase.AppendOrbit | starter/database.py:46-53 | the registered object gains the row's path at the end of its orbits, and that path is a new object; nothing else changes; no object lists one path twice afterwards if none did before |
| Database.NEODatabase.AddOrbit | starter/database.py:46-53 | the name-index half of a row: the object of the row's name grows as the catalogue fold says; every object registered before stays registered as the same object; the date index is unchanged; since each row builds its own path, no object lists one path twice afterwards if none did before |
| Database.NEODatabase.FileUnderDate | starter/database.py:55-58 | the date-index half of a row, as the catalogue fold says |
| Database.NEODatabase.AddRow | starter/database.py:45-58 | one pass of the row loop is one step of the catalogue fold, failure included; every object registered before stays registered as the same object; the invariant is kept; since each row builds its own path, no object lists one path twice afterwards if none did before |
| Database.NEODatabase.LoadRows | starter/database.py:45-58 | the row loop leaves the catalogue and failure of the fold over all rows; later rows reuse the objects created first, so every object registered before stays registered as the same object; since each row builds its own path, no object lists one path twice afterwards if none did before |
| Database.NEODatabase.LoadData | starter/database.py:24-60 | without either file name nothing changes, neither the two indexes nor any object's orbits, and the outcome says so; in every case every object registered before stays registered as the same object; otherwise the catalogue is the fold of the rows, the outcome names the file used, the argument before the stored name, or the failing row; since each row builds its own path, no object lists one path twice afterwards if none did before |
| Filters.FieldOf | starter/search.py:79-84 | a field name is known exactly when it is `diameter`, `distance` or `is_hazardous` |
| Filters.FieldNames | starter/search.py:79-84 | field names and fields correspond one to one |
| Filters.OwnerOf | starter/search.py:120-123 | an attribute belongs to the object class when the object has it, else to the path class when the path has it |
| Filters.FieldOwners | starter/search.py:79-84 | diameter and hazard are object attributes, distance is a path attribute |
| Filters.OperatorOf | starter/search.py:86-91 | an operator is known exactly when it is `>`, `=` or `>=` |
| Filters.GeIsNotLess | starter/search.py:90 | `>=` holds exactly when the attribute text is not below the value text |
| Filters.NeoValue | starter/search.py:137-139 | an object has a value for a field exactly when the field's attribute is an object attribute |
| Filters.PathValue | starter/search.py:137-139 | a path has a value for a field exactly when the field's attribute is a path attribute |
| Filters.Test | starter/search.py:137-141 | testing one record fails exactly when the attribute is missing or the operator unknown; otherwise it is the comparison of the texts |
| Filters.Apply | starter/search.py:126-144 | the loop gives the filtered list or the first error, as the filter fold says |
| Filters.FilteredStops | starter/search.py:136-142 | records after the first failing one are not looked at |
| Filters.FilteredFails | starter/search.py:136-142 | applying fails exactly when some record lacks the attribute or the operator is unknown; an empty list never fails |
| Filters.FilteredMembers | starter/search.py:134-144 | a record is kept exactly when it is in the input and passes the filter |
| Filters.FilteredSubsequence | starter/search.py:134-144 | the kept records are a subsequence of the input, order kept, so never more of them |
| Filters.FilteredIdempotent | starter/search.py:126-144 | applying a filter twice keeps the same records as applying it once |
| Queries.TypeName | starter/search.py:54-57 | the recorded type name is `equals` exactly for an exact-date search |
| Queries.ReturnObjectOf | starter/search.py:59 | `NEO` selects objects, `Path` selects paths, anything else selects neither |
| Queries.KnownOwned | starter/search.py:118-123 | an option is given a kind exactly when its field is known |
| Queries.CreateFilterOptions | starter/search.py:105-124 | the loop gives the grouping, or the first unknown field, as the grouping fold says |
| Queries.GroupedStops | starter/search.py:117-123 | options after the first unknown one are not looked at |
| Queries.GroupedFails | starter/search.py:118-123 | grouping fails exactly when some option names an unknown field |
| Queries.GroupedPartition | starter/search.py:115-124 | each kind's group is that kind's options in input order; the key order lists each kind met once, and only non-empty groups |
| Queries.OfKindMembers | starter/search.py:117-123 | an option is in a kind's group exactly when it is among the options and its field belongs to that kind |
| Queries.OfKindPartition | starter/search.py:117-123 | with every field known, the two groups together hold every option |
| Queries.FilterOfFails | starter/search.py:67-69 | parsing an option fails exactly when its field is unknown or it has no `:`; the filter keeps its group's kind |
| Queries.FilterOfPieces | starter/search.py:67-69 | the filter takes the field from the first piece, the operator from the second, and the value from the last |
| Queries.FilterOfJoin | starter/search.py:67-69 | an option written as field, operator and more pieces joined by `:` parses to that field and operator and the last piece; middle pieces are ignored |
| Queries.FilterRoundTrip | starter/search.py:67-69 | writing a filter as `field:operator:value` and parsing it gives the same filter back |
| Queries.ParsedFails | starter/search.py:66-69 | a group fails to parse exactly when one of its options does |
| Queries.ParsedKinds | starter/search.py:66-69 | a parsed group has one filter per option, all of the group's kind |
| Queries.ParsedValues | starter/search.py:66-69 | the i-th filter of a group is the parse of its i-th option |
| Queries.ParsedStops | starter/search.py:66-69 | options after the first bad one are not looked at |
| Queries.ParseGroup | starter/search.py:66-69 | the inner loop gives the group's filters or its first error, as the parse fold says |
| Queries.AssembledStops | starter/search.py:65-69 | groups after the first bad one are not looked at |
| Queries.AssembledFails | starter/search.py:65-69 | assembling fails exactly when some listed kind's group does not parse |
| Queries.AssembledUnlisted | starter/search.py:65-69 | a kind not listed contributes no filters |
| Queries.AssembledKinds | starter/search.py:65-69 | the filters of a kind listed once are exactly its parsed group, in order |
| Queries.GroupBreaks | starter/search.py:63-69 | a group that does not parse holds an option without `:` |
| Queries.OptionBreaks | starter/search.py:63-69 | an option without `:` makes its kind's group fail to parse |
| Queries.FiltersOfFacts | starter/search.py:63-69 | the options give filters exactly when every option has a known field and a `:`; then there is one filter per option, and the filters of each kind are that kind's options parsed in input order |
| Queries.FiltersOfFails | starter/search.py:63-69 | the options give filters exactly when every option has a known field and a `:` |
| Queries.FiltersOfKinds | starter/search.py:63-69 | on success the filters of each kind are that kind's options parsed in input order |
| Queries.FiltersOfCount | starter/search.py:63-69 | on success there is one filter per option |
| Queries.BuildQuery | starter/search.py:45-71 | `build_query` gives the selectors, or the first error, as `Built` says |
| Queries.BuiltSelectors | starter/search.py:45-71 | raises exactly when the filter list is non-empty and some option has an unknown field or no `:`. Otherwise: the number is kept; the search is exact-date exactly when a date is given, and carries that date or else the two bounds; the return kind is mapped; there is one filter per option, each kind's in option order |
| Searcher.ReturnDateSearchEqual | starter/search.py:211-216 | the loop gives the objects filed under the date, as the date function says |
| Searcher.EqualInBucket | starter/search.py:214-215 | over distinct keys, scanning for the date gives exactly that date's list, or nothing when the date is absent |
| Searcher.DateEqualBucket | starter/search.py:211-216 | the exact-date search returns the date's list, or nothing |
| Searcher.ReturnDateSearchBetween | starter/search.py:218-224 | the loop gives the objects of the dates in range, or the error, as the range function says |
| Searcher.BetweenStops | starter/search.py:221-223 | dates after the one where a comparison raises are not looked at |
| Searcher.BetweenFails | starter/search.py:222 | the range search raises exactly when some date is compared with a missing start, or is at or after the start with a missing end |
| Searcher.BetweenMembers | starter/search.py:218-224 | an object is returned exactly when it is filed under some date from start to end inclusive |
| Searcher.BetweenOneDay | starter/search.py:222 | a range from a date to itself gives what the exact-date scan gives |
| Searcher.DateBetweenOneDay | starter/search.py:218-224 | the one-day range search equals the exact-date search |
| Searcher.SearchByDate | starter/search.py:184-187 | the type name chooses the exact-date or range search |
| Searcher.DatedWithin | starter/search.py:184-187 | the date search returns only objects of the searcher's date index |
| Searcher.ReturnOrbitPathsFromNeos | starter/search.py:226-231 | the loop gives the objects' orbit lists, concatenated in order |
| Searcher.OrbitsMembers | starter/search.py:226-231 | a path is gathered exactly when it is an orbit of one of the objects |
| Searcher.LastDistanceIsLast | starter/search.py:189-193 | the kept distance filter is none when there is none, and otherwise a distance filter of the list |
| Searcher.PrefilteredMembers | starter/search.py:190-194 | an object survives the non-distance filters exactly when it was found and passes each of them |
| Searcher.PrefilteredSucceeds | starter/search.py:190-194 | the non-distance filters cannot raise when their operators are known |
| Searcher.PrefilteredWithin | starter/search.py:190-194 | filtering only removes objects |
| Searcher.ApplyFilters | starter/search.py:189-194 | the filter loop gives the prefiltered objects and keeps the last distance filter |
| Searcher.Owners | starter/search.py:233-235 | one owner per path, looked up by the path's name in the live name index: `None` exactly when the name is absent, otherwise the object registered under that name; PoolsWithDistanceOwners proves that `None` cannot occur over a consistent catalogue that registers the searched objects |
| Searcher.Gather | starter/search.py:195-205 | the surviving objects and paths, as `Survivors` says |
| Searcher.SliceLength | starter/search.py:208-209 | `[:n]` keeps `n` items when `0 <= n <= len`, all of them when `n >= len`, and never more than there are |
| Searcher.Take | starter/search.py:204-209 | `list(set(..))[:n]` gives distinct members of the set, as many as the slice keeps |
| Searcher.NEOSearcher.constructor | starter/search.py:154-161 | the searcher keeps the database and a copy of its date index, with no search type yet |
| Searcher.NEOSearcher.Find | starter/search.py:179-204 | the date search, the filter loop and the gathering leave exactly the pools, or the error the first failing step raises |
| Searcher.NEOSearcher.GetObjects | starter/search.py:163-209 | records the search type; raises exactly when the date search or a filter does; otherwise returns distinct paths when paths are asked for, and distinct objects otherwise, drawn from the survivors, as many as `[:number]` keeps; over a consistent catalogue that registers the searched objects, no returned object is `None` |
| Searcher.PoolsWithoutDistance | starter/search.py:189-205 | without a distance filter, the objects are the dated objects that pass every other filter, and the paths are exactly their orbits |
| Searcher.PoolsWithDistance | starter/search.py:195-205 | with a distance filter, the paths are the orbits of the filtered objects that pass the last distance filter, and the objects are looked up by those paths' names |
| Searcher.ValidRegistered | starter/search.py:158-160 | a valid database's own date index, which the searcher copies, holds only objects registered under their names |
| Searcher.RegisteredKept | starter/database.py:48-51 | loading more rows keeps the searcher's copy registered, since objects registered before stay registered as the same objects |
| Searcher.PoolsWithDistanceOwners | starter/search.py:195-205 | with a distance filter over a consistent catalogue that registers the searched objects: no `None` is found, and an object is found exactly when it passed the other filters and at least one of its orbits passes the distance filter, so an object is dropped only when all its orbits fail |
| Searcher.PoolsOwned | starter/search.py:195-209 | over a consistent catalogue that registers the searched objects, the objects found are never `None`, with or without a distance filter |
| Searcher.SampleOwned | starter/search.py:207-209 | what is cut from a pool without `None` holds no `None` either |

## Left out

- Reading the CSV file and the `exceptions` module are not modelled. `LoadData` takes the rows as a parameter, and `UnsupportedFeature` is not part of this model.
- `float()` is not modelled. The model keeps a diameter or miss-distance cell as its text, not as `str(float(cell))`, so `1e3` stays `1e3` rather than becoming `1000.0`. The `ValueError` that `float()` raises on an empty or non-numeric cell is also not modelled. During `load_data`, a bad miss-distance cell would raise in `OrbitPath(**row_data)` (starter/database.py:46), before the name is looked up. A bad diameter cell would raise only inside `NearEarthObject(**row_data)` (starter/database.py:49), so only on the first row of a name. On a later row of a known name, a bad diameter cell is never read and raises nothing.
- `number` is an integer. `int(query.number)` on text or `None` is not modelled.
- The `__repr__` methods and `DateSearch.list` are left out. They only format output.
- Searcher.NEOSearcher.constructor: `dict(db.orbit_date)` copies the dict but shares its lists with the database. The model copies the lists as values, so a later load does not reach the searcher's copy.
- Searcher.Take: Python's set iteration order is not modelled. Take promises distinct members of the set, the right count, and nothing about their order.
- Searcher.Owners: a path whose name is not in the name index gives `None`, as `dict.get` does. That `None` never occurs is proved only under a hypothesis: a consistent catalogue that registers every object of the searcher's copy of the date index. The searcher does not keep this as an invariant. `ValidRegistered` and `RegisteredKept` prove that a searcher made from a valid database starts with it, and that later loads keep it.
- Models.PathOf, Models.NeoOf, Models.OrbitPath.constructor, Models.NearEarthObject.constructor: these require a `name` cell, whereas `kwargs.get('name')` would give `None`. In the core they are only reached for rows that have a name. A nameless row raises `KeyError` at starter/database.py:48 before its path is kept anywhere.
- Filters.Apply: `operator.gt` and the others are modelled only on the `str` values the code passes them.
- Concurrency does not arise. No other part of the three files is left out.

=== FILE: catalog.dfy ===
/** What loading rows does to the catalogue (starter/database.py, load_data),
    stated on values: the name index maps each name to its object, the date
    index keeps its keys in first-use order and maps each date to the names
    of the objects seen that day, in row order. The database class is proved
    to follow this fold. */
module CatalogLoad {
  import opened Wrappers
  import opened Models

  datatype Catalog = Catalog(neos: map<string, NeoRecord>, dates: seq<string>, buckets: map<string, seq<string>>)

  /** The catalogue of a fresh database. */
  const EMPTY := Catalog(map[], [], map[])

  /** A row at position `row` lacks the column `key` (Python's KeyError). */
  datatype RecordError = RecordError(row: nat, key: string)

  /** The catalogue after a load, and the error that stopped it, if any. */
  datatype Loaded = Loaded(catalog: Catalog, failure: Option<RecordError>)

  predicate WellFormed(row: Row) {
    NAME in row.fields && APPROACH_DATE in row.fields
  }

  /** The catalogue invariant: date keys are distinct and are exactly the
      bucket keys; every name in a bucket is registered; each object sits
      under its own name and every orbit of it names it. */
  ghost predicate Consistent(c: Catalog) {
    DatesListed(c) && BucketsRegistered(c) && NamesOwned(c)
  }

  ghost predicate DatesListed(c: Catalog) {
    && (forall i, j :: 0 <= i < j < |c.dates| ==> c.dates[i] != c.dates[j])
    && (forall i :: 0 <= i < |c.dates| ==> c.dates[i] in c.buckets)
    && (forall d :: d in c.buckets ==> d in c.dates)
  }

  ghost predicate BucketsRegistered(c: Catalog) {
    forall d, i :: d in c.buckets && 0 <= i < |c.buckets[d]| ==> c.buckets[d][i] in c.neos
  }

  ghost predicate NamesOwned(c: Catalog) {
    && (forall k :: k in c.neos ==> c.neos[k].name == k)
    && (forall k, i :: k in c.neos && 0 <= i < |c.neos[k].orbits| ==> c.neos[k].orbits[i].neoName == k)
  }

  /** One pass of the row loop. A row without a name fails at once; a row
      with a name but no date has already registered its object and appended
      its orbit when it fails. */
  function AddRow(c: Catalog, row: Row, index: nat): (r: Loaded)
    ensures r.failure.None? <==> WellFormed(row)
    ensures r.failure.Some? ==> r.failure.value.row == index
  {
    if NAME !in row.fields then Loaded(c, Some(RecordError(index, NAME)))
    else
      var name := row.fields[NAME];
      var neo := if name in c.neos then c.neos[name] else NeoOf(row);
      var c1 := c.(neos := c.neos[name := neo.(orbits := neo.orbits + [PathOf(row)])]);
      if APPROACH_DATE !in row.fields then Loaded(c1, Some(RecordError(index, APPROACH_DATE)))
      else
        var date := row.fields[APPROACH_DATE];
        if date in c1.buckets then
          Loaded(c1.(buckets := c1.buckets[date := c1.buckets[date] + [name]]), None)
        else
          Loaded(c1.(dates := c1.dates + [date], buckets := c1.buckets[date := [name]]), None)
  }

  /** The row loop over `rows`, stopping at the first row that fails. */
  function AddRows(c: Catalog, rows: seq<Row>): Loaded
    decreases |rows|
  {
    if rows == [] then Loaded(c, None)
    else
      var before := AddRows(c, rows[..|rows| - 1]);
      if before.failure.Some? then before
      else AddRow(before.catalog, rows[|rows| - 1], |rows| - 1)
  }

  /** The names of the rows. */
  function NamesOf(rows: seq<Row>): set<string>
    decreases |rows|
  {
    if rows == [] then {}
    else
      var last := rows[|rows| - 1];
      NamesOf(rows[..|rows| - 1]) + (if NAME in last.fields then {last.fields[NAME]} else {})
  }

  /** The orbit paths of the rows named `name`, in row order. */
  function PathsNamed(rows: seq<Row>, name: string): seq<PathRecord>
    decreases |rows|
  {
    if rows == [] then []
    else
      var last := rows[|rows| - 1];
      PathsNamed(rows[..|rows| - 1], name) +
        (if NAME in last.fields && last.fields[NAME] == name then [PathOf(last)] else [])
  }

  /** The dates of the rows. */
  function DatesOf(rows: seq<Row>): set<string>
    decreases |rows|
  {
    if rows == [] then {}
    else
      var last := rows[|rows| - 1];
      DatesOf(rows[..|rows| - 1]) + (if APPROACH_DATE in last.fields then {last.fields[APPROACH_DATE]} else {})
  }

  /** The names of the rows dated `date`, in row order. */
  function NamesOnDate(rows: seq<Row>, date: string): seq<string>
    decreases |rows|
  {
    if rows == [] then []
    else
      var last := rows[|rows| - 1];
      NamesOnDate(rows[..|rows| - 1], date) +
        (if WellFormed(last) && last.fields[APPROACH_DATE] == date then [last.fields[NAME]] else [])
  }

  /** The size of the bucket under `date`, zero when there is none. */
  function BucketSize(buckets: map<string, seq<string>>, date: string): nat {
    if date in buckets then |buckets[date]| else 0
  }

  /** The total length of the buckets under `dates`. */
  function TotalOver(dates: seq<string>, buckets: map<string, seq<string>>): nat
    decreases |dates|
  {
    if dates == [] then 0
    else TotalOver(dates[..|dates| - 1], buckets) + BucketSize(buckets, dates[|dates| - 1])
  }

  /** The total length of all date buckets. */
  function Total(c: Catalog): nat {
    TotalOver(c.dates, c.buckets)
  }

  /** An object's attributes, without its orbits. */
  function Attributes(n: NeoRecord): NeoRecord {
    n.(orbits := [])
  }

  predicate AllWellFormed(rows: seq<Row>) {
    forall i :: 0 <= i < |rows| ==> WellFormed(rows[i])
  }

  lemma AllWellFormedPrefix(rows: seq<Row>)
    requires rows != [] && AllWellFormed(rows)
    ensures AllWellFormed(rows[..|rows| - 1]) && WellFormed(rows[|rows| - 1])
  {
  }

  // ---------------------------------------------------------------------
  // Success and failure

  /** Loading stops exactly at the first row lacking `name` or
      `close_approach_date`, and succeeds when there is none. */
  lemma {:induction false} AddRowsFailure(c: Catalog, rows: seq<Row>)
    ensures AddRows(c, rows).failure.None? <==> AllWellFormed(rows)
    ensures AddRows(c, rows).failure.Some? ==>
      var i := AddRows(c, rows).failure.value.row;
      i < |rows| && !WellFormed(rows[i]) && AllWellFormed(rows[..i])
    decreases |rows|
  {
    if rows != [] {
      var n := |rows| - 1;
      AddRowsFailure(c, rows[..n]);
      var before := AddRows(c, rows[..n]);
      if before.failure.Some? {
        var i := before.failure.value.row;
        assert rows[..n][..i] == rows[..i];
        assert rows[i] == rows[..n][i];
      } else {
        assert rows[..n] == rows[..|rows|][..n];
        if !WellFormed(rows[n]) {
          assert rows[..n] == rows[..AddRows(c, rows).failure.value.row];
        }
      }
    }
  }

  /** One more pass of the row loop: when row `i` succeeds the fold has
      reached `rows[..i + 1]`; when it fails, the fold over all of `rows`
      ends there. */
  lemma AddRowsStep(c: Catalog, rows: seq<Row>, i: nat, before: Catalog, after: Loaded)
    requires i < |rows| && AddRows(c, rows[..i]) == Loaded(before, None)
    requires after == AddRow(before, rows[i], i)
    ensures after.failure.None? ==> AddRows(c, rows[..i + 1]) == after
    ensures after.failure.Some? ==> AddRows(c, rows) == after
  {
    assert rows[..i + 1][..i] == rows[..i];
    if after.failure.Some? {
      AddRowsStops(c, rows, i);
    }
  }

  /** Rows after the one that failed are not looked at. */
  lemma {:induction false} AddRowsStops(c: Catalog, rows: seq<Row>, i: nat)
    requires i < |rows| && AddRows(c, rows[..i + 1]).failure.Some?
    ensures AddRows(c, rows) == AddRows(c, rows[..i + 1])
    decreases |rows|
  {
    if |rows| > i + 1 {
      var n := |rows| - 1;
      assert rows[..n][..i + 1] == rows[..i + 1];
      AddRowsStops(c, rows[..n], i);
    } else {
      assert rows[..i + 1] == rows;
    }
  }

  // ---------------------------------------------------------------------
  // The name index

  lemma {:induction false} PathsNamedAbsent(rows: seq<Row>, k: string)
    requires k !in NamesOf(rows)
    ensures PathsNamed(rows, k) == []
    decreases |rows|
  {
    if rows != [] {
      PathsNamedAbsent(rows[..|rows| - 1], k);
    }
  }

  /** After a load, there is exactly one entry per distinct name: the
      earlier ones and the names of the rows. */
  lemma {:induction false} AddRowsKeys(c: Catalog, rows: seq<Row>)
    requires AllWellFormed(rows)
    ensures AddRows(c, rows).catalog.neos.Keys == c.neos.Keys + NamesOf(rows)
    decreases |rows|
  {
    if rows != [] {
      var n := |rows| - 1;
      AllWellFormedPrefix(rows);
      AddRowsKeys(c, rows[..n]);
      AddRowsFailure(c, rows[..n]);
    }
  }

  /** Each object's orbits are its earlier orbits followed by one orbit per
      row with its name, in row order. */
  lemma {:induction false} AddRowsOrbits(c: Catalog, rows: seq<Row>)
    requires AllWellFormed(rows)
    ensures var r := AddRows(c, rows).catalog;
      forall k :: k in r.neos ==>
        r.neos[k].orbits == (if k in c.neos then c.neos[k].orbits else []) + PathsNamed(rows, k)
    decreases |rows|
  {
    if rows != [] {
      var n := |rows| - 1;
      AllWellFormedPrefix(rows);
      AddRowsOrbits(c, rows[..n]);
      AddRowsKeys(c, rows[..n]);
      AddRowsFailure(c, rows[..n]);
      var b := AddRows(c, rows[..n]).catalog;
      var r := AddRows(c, rows).catalog;
      AddRowNeos(b, rows[n], n);
      forall k | k in r.neos
        ensures r.neos[k].orbits == (if k in c.neos then c.neos[k].orbits else []) + PathsNamed(rows, k)
      {
        OrbitStep(c, rows, b, k, r.neos[k].orbits);
      }
    }
  }

  /** The induction step of AddRowsOrbits for one name. */
  lemma OrbitStep(c: Catalog, rows: seq<Row>, b: Catalog, k: string, orbits: seq<PathRecord>)
    requires rows != [] && WellFormed(rows[|rows| - 1])
    requires k in b.neos <==> k in c.neos || k in NamesOf(rows[..|rows| - 1])
    requires k in b.neos ==>
      b.neos[k].orbits == (if k in c.neos then c.neos[k].orbits else []) + PathsNamed(rows[..|rows| - 1], k)
    requires var last := rows[|rows| - 1];
      orbits == (if k in b.neos then b.neos[k].orbits else []) +
        (if k == last.fields[NAME] then [PathOf(last)] else [])
    ensures orbits == (if k in c.neos then c.neos[k].orbits else []) + PathsNamed(rows, k)
  {
    var n := |rows| - 1;
    var last := rows[n];
    var earlier := if k in c.neos then c.neos[k].orbits else [];
    var added := if k == last.fields[NAME] then [PathOf(last)] else [];
    assert PathsNamed(rows, k) == PathsNamed(rows[..n], k) + added;
    if k !in b.neos {
      PathsNamedAbsent(rows[..n], k);
    } else {
      AppendAssociative(earlier, PathsNamed(rows[..n], k), added);
    }
  }

  /** `rows[i]` is the first row named `k`. */
  predicate FirstNamed(rows: seq<Row>, k: string, i: int) {
    && 0 <= i < |rows| && Named(rows[i], k)
    && forall j :: 0 <= j < i ==> !Named(rows[j], k)
  }

  predicate Named(row: Row, k: string) {
    NAME in row.fields && row.fields[NAME] == k
  }

  /** The names of the rows are the names some row carries. */
  lemma {:induction false} NamesOfMembers(rows: seq<Row>, k: string)
    ensures k in NamesOf(rows) <==> exists j :: 0 <= j < |rows| && Named(rows[j], k)
    decreases |rows|
  {
    if rows != [] {
      var n := |rows| - 1;
      NamesOfMembers(rows[..n], k);
      if k in NamesOf(rows[..n]) {
        var j :| 0 <= j < n && Named(rows[..n][j], k);
        assert rows[j] == rows[..n][j];
      }
      if exists j :: 0 <= j < |rows| && Named(rows[j], k) {
        var j :| 0 <= j < |rows| && Named(rows[j], k);
        if j < n {
          assert rows[..n][j] == rows[j];
        }
      }
    }
  }

  /** The object a well-formed row leaves under its name: the one already
      there, or a new one built from the row, with the row's orbit added. */
  function Grown(c: Catalog, row: Row): NeoRecord
    requires NAME in row.fields
  {
    var name := row.fields[NAME];
    var neo := if name in c.neos then c.neos[name] else NeoOf(row);
    neo.(orbits := neo.orbits + [PathOf(row)])
  }

  lemma AddRowNeos(c: Catalog, row: Row, index: nat)
    requires WellFormed(row)
    ensures AddRow(c, row, index).catalog.neos == c.neos[row.fields[NAME] := Grown(c, row)]
  {
  }

  /** Loading never changes the attributes of an object already present. */
  lemma {:induction false} AddRowsKeepAttributes(c: Catalog, rows: seq<Row>)
    requires AllWellFormed(rows)
    ensures var r := AddRows(c, rows).catalog;
      forall k :: k in c.neos ==> k in r.neos && Attributes(r.neos[k]) == Attributes(c.neos[k])
    decreases |rows|
  {
    if rows != [] {
      var n := |rows| - 1;
      AllWellFormedPrefix(rows);
      AddRowsKeepAttributes(c, rows[..n]);
      AddRowsFailure(c, rows[..n]);
      AddRowNeos(AddRows(c, rows[..n]).catalog, rows[n], n);
    }
  }

  /** A new object takes its attributes from the first row with its name. */
  lemma {:induction false} AddRowsNewAttributes(c: Catalog, rows: seq<Row>)
    requires AllWellFormed(rows)
    ensures var r := AddRows(c, rows).catalog;
      forall k :: k in r.neos && k !in c.neos ==>
        exists i :: FirstNamed(rows, k, i) && Attributes(r.neos[k]) == NeoOf(rows[i])
    decreases |rows|
  {
    if rows != [] {
      var n := |rows| - 1;
      var last := rows[n];
      AllWellFormedPrefix(rows);
      AddRowsNewAttributes(c, rows[..n]);
      AddRowsKeys(c, rows[..n]);
      AddRowsFailure(c, rows[..n]);
      var b := AddRows(c, rows[..n]).catalog;
      var r := AddRows(c, rows).catalog;
      AddRowNeos(b, last, n);
      forall k | k in r.neos && k !in c.neos
        ensures exists i :: FirstNamed(rows, k, i) && Attributes(r.neos[k]) == NeoOf(rows[i])
      {
        if k in b.neos {
          var i :| FirstNamed(rows[..n], k, i) && Attributes(b.neos[k]) == NeoOf(rows[..n][i]);
          FirstNamedExtends(rows, k, i);
          assert Attributes(r.neos[k]) == Attributes(b.neos[k]);
        } else {
          FirstNamedLast(rows, k);
        }
      }
    }
  }

  /** A first occurrence in a prefix is a first occurrence in the rows. */
  lemma FirstNamedExtends(rows: seq<Row>, k: string, i: int)
    requires rows != [] && FirstNamed(rows[..|rows| - 1], k, i)
    ensures FirstNamed(rows, k, i) && rows[..|rows| - 1][i] == rows[i]
  {
    var n := |rows| - 1;
    assert forall j :: 0 <= j <= i ==> rows[..n][j] == rows[j];
  }

  /** The last row is the first named `k` when no earlier row is. */
  lemma FirstNamedLast(rows: seq<Row>, k: string)
    requires rows != [] && Named(rows[|rows| - 1], k) && k !in NamesOf(rows[..|rows| - 1])
    ensures FirstNamed(rows, k, |rows| - 1)
  {
    var n := |rows| - 1;
    NamesOfMembers(rows[..n], k);
    assert forall j :: 0 <= j < n ==> rows[..n][j] == rows[j];
  }

  // ---------------------------------------------------------------------
  // The date index

  lemma {:induction false} NamesOnDateAbsent(rows: seq<Row>, d: string)
    requires d !in DatesOf(rows)
    ensures NamesOnDate(rows, d) == []
    decreases |rows|
  {
    if rows != [] {
      NamesOnDateAbsent(rows[..|rows| - 1], d);
    }
  }

  /** After a load, a bucket exists for exactly the dates seen before or in
      the rows. */
  lemma {:induction false} AddRowsDateKeys(c: Catalog, rows: seq<Row>)
    requires AllWellFormed(rows)
    ensures AddRows(c, rows).catalog.buckets.Keys == c.buckets.Keys + DatesOf(rows)
    decreases |rows|
  {
    if rows != [] {
      var n := |rows| - 1;
      AllWellFormedPrefix(rows);
      AddRowsDateKeys(c, rows[..n]);
      AddRowsFailure(c, rows[..n]);
      AddRowBucket(AddRows(c, rows[..n]).catalog, rows[n], n);
    }
  }

  /** After a load, each date bucket holds its earlier names followed by the
      name of every row with that date, in row order. */
  lemma {:induction false} AddRowsDates(c: Catalog, rows: seq<Row>)
    requires AllWellFormed(rows)
    ensures var r := AddRows(c, rows).catalog;
      forall d :: d in r.buckets ==>
        r.buckets[d] == (if d in c.buckets then c.buckets[d] else []) + NamesOnDate(rows, d)
    decreases |rows|
  {
    if rows != [] {
      var n := |rows| - 1;
      AllWellFormedPrefix(rows);
      AddRowsDates(c, rows[..n]);
      AddRowsDateKeys(c, rows[..n]);
      AddRowsFailure(c, rows[..n]);
      var b := AddRows(c, rows[..n]).catalog;
      var r := AddRows(c, rows).catalog;
      AddRowBucket(b, rows[n], n);
      forall d | d in r.buckets
        ensures r.buckets[d] == (if d in c.buckets then c.buckets[d] else []) + NamesOnDate(rows, d)
      {
        DateStep(c, rows, b, d, r.buckets[d]);
      }
    }
  }

  lemma DateStep(c: Catalog, rows: seq<Row>, b: Catalog, d: string, bucket: seq<string>)
    requires rows != [] && WellFormed(rows[|rows| - 1])
    requires d in b.buckets <==> d in c.buckets || d in DatesOf(rows[..|rows| - 1])
    requires d in b.buckets ==>
      b.buckets[d] == (if d in c.buckets then c.buckets[d] else []) + NamesOnDate(rows[..|rows| - 1], d)
    requires var last := rows[|rows| - 1];
      bucket == (if d in b.buckets then b.buckets[d] else []) +
        (if d == last.fields[APPROACH_DATE] then [last.fields[NAME]] else [])
    ensures bucket == (if d in c.buckets then c.buckets[d] else []) + NamesOnDate(rows, d)
  {
    var n := |rows| - 1;
    var last := rows[n];
    var earlier := if d in c.buckets then c.buckets[d] else [];
    var added := if d == last.fields[APPROACH_DATE] then [last.fields[NAME]] else [];
    assert NamesOnDate(rows, d) == NamesOnDate(rows[..n], d) + added;
    if d !in b.buckets {
      NamesOnDateAbsent(rows[..n], d);
    } else {
      AppendAssociative(earlier, NamesOnDate(rows[..n], d), added);
    }
  }

  lemma AppendAssociative<T>(a: seq<T>, b: seq<T>, c: seq<T>)
    ensures (a + b) + c == a + (b + c)
  {
  }

  /** One well-formed row adds its date's bucket if it is new and appends its
      name to that bucket; the other buckets stay as they were. */
  lemma AddRowBucket(b: Catalog, row: Row, index: nat)
    requires WellFormed(row)
    ensures var r := AddRow(b, row, index).catalog;
      && r.buckets.Keys == b.buckets.Keys + {row.fields[APPROACH_DATE]}
      && forall d :: d in r.buckets ==>
           r.buckets[d] == (if d in b.buckets then b.buckets[d] else []) +
             (if d == row.fields[APPROACH_DATE] then [row.fields[NAME]] else [])
  {
  }

  /** Loading never moves a date key already listed: the earlier list is a
      prefix of the new one. */
  lemma {:induction false} AddRowsDatesPrefix(c: Catalog, rows: seq<Row>)
    ensures var r := AddRows(c, rows).catalog;
      |c.dates| <= |r.dates| && r.dates[..|c.dates|] == c.dates
    decreases |rows|
  {
    if rows != [] {
      var n := |rows| - 1;
      AddRowsDatesPrefix(c, rows[..n]);
      var b := AddRows(c, rows[..n]);
      if b.failure.None? {
        var r := AddRows(c, rows).catalog;
        assert r.dates[..|b.catalog.dates|] == b.catalog.dates;
        assert r.dates[..|c.dates|] == b.catalog.dates[..|c.dates|];
      }
    }
  }

  lemma {:induction false} TotalOverUntouched(dates: seq<string>, buckets: map<string, seq<string>>, d: string, v: seq<string>)
    requires d !in dates
    ensures TotalOver(dates, buckets[d := v]) == TotalOver(dates, buckets)
    decreases |dates|
  {
    if dates != [] {
      TotalOverUntouched(dates[..|dates| - 1], buckets, d, v);
    }
  }

  lemma {:induction false} TotalOverGrow(dates: seq<string>, buckets: map<string, seq<string>>, d: string, x: string)
    requires d in buckets && d in dates
    requires forall i, j :: 0 <= i < j < |dates| ==> dates[i] != dates[j]
    ensures TotalOver(dates, buckets[d := buckets[d] + [x]]) == TotalOver(dates, buckets) + 1
    decreases |dates|
  {
    var n := |dates| - 1;
    if dates[n] == d {
      assert d !in dates[..n];
      TotalOverUntouched(dates[..n], buckets, d, buckets[d] + [x]);
    } else {
      TotalOverGrow(dates[..n], buckets, d, x);
    }
  }

  /** One row keeps the catalogue invariant, whether or not it fails. */
  lemma AddRowKeeps(c: Catalog, row: Row, index: nat)
    requires Consistent(c)
    ensures Consistent(AddRow(c, row, index).catalog)
  {
    AddRowKeepsDates(c, row, index);
    AddRowKeepsBuckets(c, row, index);
    AddRowKeepsNames(c, row, index);
  }

  lemma AddRowKeepsDates(c: Catalog, row: Row, index: nat)
    requires DatesListed(c)
    ensures DatesListed(AddRow(c, row, index).catalog)
  {
    if WellFormed(row) && row.fields[APPROACH_DATE] !in c.buckets {
      var dates := c.dates + [row.fields[APPROACH_DATE]];
      assert forall i :: 0 <= i < |c.dates| ==> dates[i] == c.dates[i];
    }
  }

  lemma AddRowKeepsBuckets(c: Catalog, row: Row, index: nat)
    requires BucketsRegistered(c)
    ensures BucketsRegistered(AddRow(c, row, index).catalog)
  {
  }

  lemma AddRowKeepsNames(c: Catalog, row: Row, index: nat)
    requires NamesOwned(c)
    ensures NamesOwned(AddRow(c, row, index).catalog)
  {
  }

  /** One well-formed row adds one entry to the date buckets. */
  lemma AddRowCounts(c: Catalog, row: Row, index: nat)
    requires Consistent(c) && WellFormed(row)
    ensures Total(AddRow(c, row, index).catalog) == Total(c) + 1
  {
    var date := row.fields[APPROACH_DATE];
    if date in c.buckets {
      TotalOverGrow(c.dates, c.buckets, date, row.fields[NAME]);
    } else {
      TotalOverUntouched(c.dates, c.buckets, date, [row.fields[NAME]]);
      assert (c.dates + [date])[..|c.dates|] == c.dates;
    }
  }

  /** Loading keeps the catalogue invariant, whether it succeeds or stops at
      a bad row. */
  lemma {:induction false} AddRowsConsistent(c: Catalog, rows: seq<Row>)
    requires Consistent(c)
    ensures Consistent(AddRows(c, rows).catalog)
    decreases |rows|
  {
    if rows != [] {
      var n := |rows| - 1;
      AddRowsConsistent(c, rows[..n]);
      var before := AddRows(c, rows[..n]);
      if before.failure.None? {
        AddRowKeeps(before.catalog, rows[n], n);
      }
    }
  }

  /** The date buckets together hold one entry per row loaded. */
  lemma {:induction false} AddRowsTotal(c: Catalog, rows: seq<Row>)
    requires Consistent(c) && AllWellFormed(rows)
    ensures Total(AddRows(c, rows).catalog) == Total(c) + |rows|
    decreases |rows|
  {
    if rows != [] {
      var n := |rows| - 1;
      AllWellFormedPrefix(rows);
      AddRowsTotal(c, rows[..n]);
      AddRowsFailure(c, rows[..n]);
      AddRowsConsistent(c, rows[..n]);
      AddRowCounts(AddRows(c, rows[..n]).catalog, rows[n], n);
    }
  }

  /** The fresh catalogue satisfies the invariant and holds nothing. */
  lemma EmptyConsistent()
    ensures Consistent(EMPTY) && Total(EMPTY) == 0
  {
  }
}

=== FILE: database.dfy ===
/** The in-memory catalogue (starter/database.py): a name index holding the
    one object of each name, and a date index from each close-approach date
    to the objects seen on that date, in row order. */
module Database {
  import opened Wrappers
  import opened Models
  import opened CatalogLoad

  /** A Python dict from date to a list of objects: its keys in insertion
      order, and the lists. */
  datatype DateIndex = DateIndex(order: seq<string>, buckets: map<string, seq<NearEarthObject>>)

  /** The keys are listed once each, and the listed keys are the dict's. */
  predicate OrderedKeys(index: DateIndex) {
    && (forall i, j :: 0 <= i < j < |index.order| ==> index.order[i] != index.order[j])
    && (forall i :: 0 <= i < |index.order| ==> index.order[i] in index.buckets)
    && (forall d :: d in index.buckets ==> d in index.order)
  }

  type OrbitDates = index: DateIndex | OrderedKeys(index) witness DateIndex([], map[])

  /** The names of a list of objects. */
  function Names(neos: seq<NearEarthObject>): (names: seq<string>)
    ensures |names| == |neos|
    ensures forall i :: 0 <= i < |neos| ==> names[i] == neos[i].name
  {
    seq(|neos|, i requires 0 <= i < |neos| => neos[i].name)
  }

  /** The date buckets with each object replaced by its name. */
  function BucketNames(buckets: map<string, seq<NearEarthObject>>): (r: map<string, seq<string>>)
    ensures r.Keys == buckets.Keys
  {
    map d | d in buckets :: Names(buckets[d])
  }

  lemma BucketNamesUpdate(buckets: map<string, seq<NearEarthObject>>, date: string, neo: NearEarthObject)
    ensures var old_ := if date in buckets then buckets[date] else [];
      BucketNames(buckets[date := old_ + [neo]])
        == BucketNames(buckets)[date := (if date in buckets then Names(buckets[date]) else []) + [neo.name]]
  {
    var old_ := if date in buckets then buckets[date] else [];
    assert Names(old_ + [neo]) == Names(old_) + [neo.name];
  }

  /** The date index after `neo` is appended to the bucket of `date`, the
      bucket being created, and its date listed last, on first sight. */
  function Filed(index: OrbitDates, date: string, neo: NearEarthObject): (r: OrbitDates)
    ensures r.order == if date in index.buckets then index.order else index.order + [date]
    ensures r.buckets == index.buckets[date := (if date in index.buckets then index.buckets[date] else []) + [neo]]
  {
    var order := if date in index.buckets then index.order else index.order + [date];
    assert forall i :: 0 <= i < |index.order| ==> order[i] == index.order[i];
    DateIndex(order, index.buckets[date := (if date in index.buckets then index.buckets[date] else []) + [neo]])
  }

  /** Filing adds `neo` and nothing else to the buckets. */
  lemma FiledMembers(index: OrbitDates, date: string, neo: NearEarthObject)
    ensures var r := Filed(index, date, neo);
      forall d, i :: d in r.buckets && 0 <= i < |r.buckets[d]| ==>
        r.buckets[d][i] == neo || (d in index.buckets && i < |index.buckets[d]| && r.buckets[d][i] == index.buckets[d][i])
  {
  }

  /** Registering the row's object and then appending its orbit grows the
      catalogue's object as one row of the loading fold does. */
  lemma GrownInSteps(c: Catalog, row: Row, registered: map<string, NeoRecord>, appended: map<string, NeoRecord>)
    requires NAME in row.fields
    requires var name := row.fields[NAME];
      registered == c.neos[name := if name in c.neos then c.neos[name] else NeoOf(row)]
    requires var name := row.fields[NAME];
      name in registered && appended == registered[name := registered[name].(orbits := registered[name].orbits + [PathOf(row)])]
    ensures appended == c.neos[row.fields[NAME] := Grown(c, row)]
  {
  }

  /** Filing an object under a date, seen through the names of the
      buckets: the date's bucket of names grows by the object's name. */
  lemma FiledModel(recs: map<string, NeoRecord>, index: OrbitDates, date: string, neo: NearEarthObject)
    ensures var m := Catalog(recs, index.order, BucketNames(index.buckets));
      var r := Filed(index, date, neo);
      Catalog(recs, r.order, BucketNames(r.buckets)) ==
        if date in m.buckets
        then m.(buckets := m.buckets[date := m.buckets[date] + [neo.name]])
        else m.(dates := m.dates + [date], buckets := m.buckets[date := [neo.name]])
  {
    BucketNamesUpdate(index.buckets, date, neo);
    assert [] + [neo.name] == [neo.name];
  }

  /** How a call to load_data ended: the source it read, no source at all
      (the exception of starter/database.py:34-35), or a row lacking a
      column. */
  datatype LoadOutcome = LoadedFrom(source: string) | NoSource | BadRow(error: RecordError)

  class NEODatabase {
    const filename: Option<string>
    var orbitDate: OrbitDates
    var neoName: map<string, NearEarthObject>

    /** Every object sits under its own name and the date buckets hold
        only registered objects. */
    ghost predicate Valid()
      reads this
    {
      && (forall k :: k in neoName ==> neoName[k].name == k)
      && ValidDates()
    }

    /** The date buckets hold only registered objects. */
    ghost predicate ValidDates()
      reads this`neoName, this`orbitDate
    {
      forall d, i :: d in orbitDate.buckets && 0 <= i < |orbitDate.buckets[d]| ==>
        var n := orbitDate.buckets[d][i];
        n.name in neoName && neoName[n.name] == n
    }

    /** Every object registered in `before` is still registered under the
        same name, as the same object. */
    ghost predicate Keeps(before: map<string, NearEarthObject>)
      reads this`neoName
    {
      forall k :: k in before ==> k in neoName && neoName[k] == before[k]
    }

    /** No object lists the same path object twice: each row builds a
        path of its own, so equal rows still give distinct paths. */
    ghost predicate DistinctOrbits()
      reads this`neoName, neoName.Values
    {
      forall k, i, j :: k in neoName && 0 <= i < j < |neoName[k].orbits| ==>
        neoName[k].orbits[i] != neoName[k].orbits[j]
    }

    /** The name index as a value. */
    ghost function NeoRecords(): map<string, NeoRecord>
      reads this`neoName, neoName.Values
    {
      map k | k in neoName :: neoName[k].Record()
    }

    /** The catalogue as a value: objects by name, date buckets by name. */
    ghost function Model(): Catalog
      reads this, neoName.Values
    {
      Catalog(NeoRecords(), orbitDate.order, BucketNames(orbitDate.buckets))
    }

    constructor (filename: Option<string>)
      ensures this.filename == filename
      ensures orbitDate == DateIndex([], map[]) && neoName == map[]
      ensures Valid() && Model() == EMPTY && DistinctOrbits()
    {
      this.filename := filename;
      orbitDate := DateIndex([], map[]);
      neoName := map[];
    }

    /** One pass of the row loop of load_data: registers the row's object
        under its name if it is new, appends the row's orbit to it, then
        appends the object to the bucket of the row's date. */
    method AddRow(row: Row, index: nat) returns (failure: Option<RecordError>)
      requires Valid()
      modifies this, neoName.Values
      ensures Valid()
      ensures Loaded(Model(), failure) == CatalogLoad.AddRow(old(Model()), row, index)
      ensures Keeps(old(neoName))
      ensures old(DistinctOrbits()) ==> DistinctOrbits()
      ensures fresh(neoName.Values - old(neoName.Values))
    {
      if NAME !in row.fields {
        return Some(RecordError(index, NAME));
      }
      var neo := AddOrbit(row);
      if APPROACH_DATE !in row.fields {
        return Some(RecordError(index, APPROACH_DATE));
      }
      FileUnderDate(row.fields[APPROACH_DATE], neo);
      return None;
    }

    /** The name-index half of a row: the object of the row's name, created
        on first sight, gets the row's orbit appended. */
    method AddOrbit(row: Row) returns (neo: NearEarthObject)
      requires Valid() && NAME in row.fields
      modifies this`neoName, neoName.Values
      ensures Valid()
      ensures neo.name == row.fields[NAME] && row.fields[NAME] in neoName && neoName[row.fields[NAME]] == neo
      ensures Model() == old(Model()).(neos := old(Model()).neos[row.fields[NAME] := Grown(old(Model()), row)])
      ensures orbitDate == old(orbitDate)
      ensures Keeps(old(neoName))
      ensures old(DistinctOrbits()) ==> DistinctOrbits()
      ensures fresh(neoName.Values - old(neoName.Values))
    {
      ghost var m0 := Model();
      neo := Register(row);
      ghost var recs := NeoRecords();
      var path := AppendOrbit(neo, row);
      GrownInSteps(m0, row, recs, NeoRecords());
    }

    /** The object of the row's name, created and registered on first sight. */
    method Register(row: Row) returns (neo: NearEarthObject)
      requires Valid() && NAME in row.fields
      modifies this`neoName
      ensures Valid()
      ensures neo.name == row.fields[NAME] && row.fields[NAME] in neoName && neoName[row.fields[NAME]] == neo
      ensures var name := row.fields[NAME];
        NeoRecords() == old(NeoRecords())[name := if name in old(neoName) then old(NeoRecords())[name] else NeoOf(row)]
      ensures Keeps(old(neoName))
      ensures old(DistinctOrbits()) ==> DistinctOrbits()
      ensures fresh(neoName.Values - old(neoName.Values))
    {
      var name := row.fields[NAME];
      if name !in neoName {
        var created := new NearEarthObject(row);
        neoName := neoName[name := created];
      }
      neo := neoName[name];
    }

    /** Appends the row's orbit, a new path, to a registered object. */
    method AppendOrbit(neo: NearEarthObject, row: Row) returns (path: OrbitPath)
      requires Valid() && NAME in row.fields && neo.name == row.fields[NAME]
      requires neo.name in neoName && neoName[neo.name] == neo
      modifies neo
      ensures Valid()
      ensures fresh(path) && path.Record() == PathOf(row) && neo.orbits == old(neo.orbits) + [path]
      ensures var recs := old(NeoRecords());
        NeoRecords() == recs[neo.name := recs[neo.name].(orbits := recs[neo.name].orbits + [PathOf(row)])]
      ensures old(DistinctOrbits()) ==> DistinctOrbits()
    {
      ghost var recs := NeoRecords();
      path := new OrbitPath(row);
      assert NeoRecords() == recs;
      neo.UpdateOrbits(path);
      forall k | k in neoName
        ensures NeoRecords()[k] == recs[neo.name := recs[neo.name].(orbits := recs[neo.name].orbits + [path.Record()])][k]
      {
        if k != neo.name {
          assert neoName[k] != neo;
        }
      }
    }

    /** The date-index half of a row: the object is appended to the bucket
        of `date`, which is created on first sight. */
    method FileUnderDate(date: string, neo: NearEarthObject)
      requires Valid() && neo.name in neoName && neoName[neo.name] == neo
      modifies this`orbitDate
      ensures Valid()
      ensures var m := old(Model());
        Model() == if date in m.buckets
                   then m.(buckets := m.buckets[date := m.buckets[date] + [neo.name]])
                   else m.(dates := m.dates + [date], buckets := m.buckets[date := [neo.name]])
    {
      ghost var recs := NeoRecords();
      FiledModel(recs, orbitDate, date, neo);
      FiledMembers(orbitDate, date, neo);
      orbitDate := Filed(orbitDate, date, neo);
      assert NeoRecords() == recs;
    }

    /** Loads `rows`, the rows of the file named by the argument or, failing
        that, by the stored file name; without either name nothing is
        loaded. */
    method LoadData(filename: Option<string>, rows: seq<Row>) returns (outcome: LoadOutcome)
      requires Valid()
      modifies this, neoName.Values
      ensures Valid()
      ensures !Truthy(filename) && !Truthy(this.filename) ==>
        && outcome == NoSource && neoName == old(neoName) && orbitDate == old(orbitDate)
        && unchanged(neoName.Values) && Model() == old(Model())
      ensures Truthy(filename) || Truthy(this.filename) ==>
        var loaded := AddRows(old(Model()), rows);
        && Model() == loaded.catalog
        && outcome == if loaded.failure.Some? then BadRow(loaded.failure.value)
                      else LoadedFrom(if Truthy(filename) then filename.value else this.filename.value)
      ensures Keeps(old(neoName))
      ensures old(DistinctOrbits()) ==> DistinctOrbits()
      ensures fresh(neoName.Values - old(neoName.Values))
    {
      if !(Truthy(filename) || Truthy(this.filename)) {
        return NoSource;
      }
      var source := if Truthy(filename) then filename.value else this.filename.value;
      var failure := LoadRows(rows);
      outcome := if failure.Some? then BadRow(failure.value) else LoadedFrom(source);
    }

    /** The row loop of load_data. Each row adds an orbit to the object of
        its name (created on first sight) and that object to the bucket of
        its date (created on first sight). Stops at the first row lacking a
        name or a date, keeping what the earlier rows added. */
    method LoadRows(rows: seq<Row>) returns (failure: Option<RecordError>)
      requires Valid()
      modifies this, neoName.Values
      ensures Valid()
      ensures Loaded(Model(), failure) == AddRows(old(Model()), rows)
      ensures Keeps(old(neoName))
      ensures old(DistinctOrbits()) ==> DistinctOrbits()
      ensures fresh(neoName.Values - old(neoName.Values))
    {
      ghost var m0 := Model();
      var i := 0;
      while i < |rows|
        invariant 0 <= i <= |rows|
        invariant Valid()
        invariant AddRows(m0, rows[..i]) == Loaded(Model(), None)
        invariant Keeps(old(neoName))
        invariant old(DistinctOrbits()) ==> DistinctOrbits()
        invariant fresh(neoName.Values - old(neoName.Values))
      {
        ghost var before := Model();
        failure := AddRow(rows[i], i);
        AddRowsStep(m0, rows, i, before, Loaded(Model(), failure));
        if failure.Some? {
          return;
        }
        i := i + 1;
      }
      assert rows[..i] == rows;
      return None;
    }
  }

  /** In a consistent catalogue every orbit of a registered object carries
      that object's name, so `neo_name.get(path.neo_name)` gives the object
      holding the path. */
  lemma OrbitNamesHolder(db: NEODatabase, k: string, p: OrbitPath)
    requires db.Valid() && Consistent(db.Model())
    requires k in db.neoName && p in db.neoName[k].orbits
    ensures p.neoName == k && db.neoName[p.neoName] == db.neoName[k]
  {
    var n := db.neoName[k];
    var i :| 0 <= i < |n.orbits| && n.orbits[i] == p;
    assert db.Model().neos[k] == n.Record();
    assert n.Record().orbits[i] == p.Record();
  }

  /** A list whose elements are pairwise distinct loses nothing to `set()`. */
  lemma {:induction false} DistinctSetSize<T>(xs: seq<T>)
    requires forall i, j :: 0 <= i < j < |xs| ==> xs[i] != xs[j]
    ensures |set x | x in xs| == |xs|
  {
    if xs != [] {
      var init := xs[..|xs| - 1];
      DistinctSetSize(init);
      assert (set x | x in xs) == (set x | x in init) + {xs[|xs| - 1]};
      assert xs[|xs| - 1] !in (set x | x in init);
    }
  }

  /** Each row loaded for a name adds a path of its own, so `set()` over
      an object's orbits keeps one path per row, even for equal rows. */
  lemma OrbitSetSize(db: NEODatabase, k: string)
    requires db.DistinctOrbits() && k in db.neoName
    ensures |set p | p in db.neoName[k].orbits| == |db.neoName[k].orbits|
  {
    DistinctSetSize(db.neoName[k].orbits);
  }
}

=== FILE: filters.dfy ===
/** Search filters (starter/search.py, class Filter): a field name mapped to
    the attribute it reads, an operator symbol mapped to a comparison, and
    `apply`, which keeps the records whose attribute text compares as asked
    with the filter's value text. */
module Filters {
  import opened Wrappers
  import opened Text
  import opened Models

  /** The filterable fields, the keys of `Filter.Options`. */
  datatype Field = Diameter | Distance | IsHazardous

  /** The record kinds, the classes `NearEarthObject` and `OrbitPath`. */
  datatype Kind = NeoKind | PathKind

  /** The comparisons of `Filter.Operators`. */
  datatype Operator = Gt | Eq | Ge

  /** A filter as `build_query` makes it: the field, the kind of record it
      was grouped under, the operator symbol as written, and the value. */
  datatype Filter = Filter(field: Field, kind: Kind, operation: string, value: string)

  /** Why `apply` raised: the record lacks the attribute (AttributeError),
      or the operator symbol is unknown, so `None` is called (TypeError). */
  datatype FilterError = MissingAttribute | UnknownOperator

  /** The attribute names a `NearEarthObject` has (starter/models.py:13-18). */
  const NEO_ATTRIBUTES: set<string> :=
    {"orbits", "name", "id", "is_potentially_hazardous_asteroid", "diameter_min_km", "diameter_max_km"}

  /** The attribute names an `OrbitPath` has (starter/models.py:52-54). */
  const PATH_ATTRIBUTES: set<string> := {"neo_name", "close_approach_date", "miss_distance_kilometers"}

  /** `Filter.Options.get(name)`: the field a name selects, if any. */
  function FieldOf(name: string): (f: Option<Field>)
    ensures f.Some? <==> name in {"diameter", "distance", "is_hazardous"}
  {
    if name == "diameter" then Some(Diameter)
    else if name == "distance" then Some(Distance)
    else if name == "is_hazardous" then Some(IsHazardous)
    else None
  }

  /** The name a field is written with in a filter option. */
  function FieldName(f: Field): string {
    match f
    case Diameter => "diameter"
    case Distance => "distance"
    case IsHazardous => "is_hazardous"
  }

  /** Field names and fields are in one-to-one correspondence. */
  lemma FieldNames(f: Field, name: string)
    ensures FieldOf(FieldName(f)) == Some(f)
    ensures FieldOf(name) == Some(f) ==> name == FieldName(f)
  {
  }

  /** The attribute a field reads, the values of `Filter.Options`. */
  function Attribute(f: Field): string {
    match f
    case Diameter => "diameter_min_km"
    case Distance => "miss_distance_kilometers"
    case IsHazardous => "is_potentially_hazardous_asteroid"
  }

  /** The kind `create_filter_options` files an attribute under: the object
      kind if a `NearEarthObject` has it, else the path kind if an
      `OrbitPath` has it, else none. */
  function OwnerOf(attribute: string): (k: Option<Kind>)
    ensures k == Some(NeoKind) <==> attribute in NEO_ATTRIBUTES
    ensures k == Some(PathKind) <==> attribute !in NEO_ATTRIBUTES && attribute in PATH_ATTRIBUTES
  {
    if attribute in NEO_ATTRIBUTES then Some(NeoKind)
    else if attribute in PATH_ATTRIBUTES then Some(PathKind)
    else None
  }

  /** Diameter and hazard filters belong to objects, distance filters to
      orbit paths. */
  lemma FieldOwners()
    ensures OwnerOf(Attribute(Diameter)) == Some(NeoKind)
    ensures OwnerOf(Attribute(IsHazardous)) == Some(NeoKind)
    ensures OwnerOf(Attribute(Distance)) == Some(PathKind)
  {
  }

  /** `Filter.Operators.get(symbol)`. */
  function OperatorOf(symbol: string): (op: Option<Operator>)
    ensures op.Some? <==> symbol in {">", "=", ">="}
  {
    if symbol == ">" then Some(Gt)
    else if symbol == "=" then Some(Eq)
    else if symbol == ">=" then Some(Ge)
    else None
  }

  /** The comparison an operator makes, on Python's string order. */
  predicate Holds(op: Operator, lhs: string, rhs: string) {
    match op
    case Gt => Less(rhs, lhs)
    case Eq => lhs == rhs
    case Ge => Less(rhs, lhs) || lhs == rhs
  }

  /** `>=` holds exactly when `<` does not. */
  lemma GeIsNotLess(lhs: string, rhs: string)
    ensures Holds(Ge, lhs, rhs) <==> !Less(lhs, rhs)
  {
    GreaterEqIsNotLess(lhs, rhs);
  }

  /** `getattr(neo, attribute)` for the attributes a filter reads. */
  function NeoValue(neo: NearEarthObject, f: Field): (v: Option<string>)
    ensures v.Some? <==> Attribute(f) in NEO_ATTRIBUTES
  {
    match f
    case Diameter => Some(neo.diameterMinKm)
    case IsHazardous => Some(neo.isHazardous)
    case Distance => None
  }

  /** `getattr(path, attribute)` for the attributes a filter reads. */
  function PathValue(path: OrbitPath, f: Field): (v: Option<string>)
    ensures v.Some? <==> Attribute(f) in PATH_ATTRIBUTES
  {
    match f
    case Distance => Some(path.missDistanceKm)
    case Diameter => None
    case IsHazardous => None
  }

  /** The accessor a filter on objects uses. */
  function NeoAccessor(f: Field): NearEarthObject -> Option<string> {
    (neo: NearEarthObject) => NeoValue(neo, f)
  }

  /** The accessor a filter on orbit paths uses. */
  function PathAccessor(f: Field): OrbitPath -> Option<string> {
    (path: OrbitPath) => PathValue(path, f)
  }

  /** One record's verdict: the attribute is read first, then the operator
      is looked up and called on the two texts. */
  function Test(f: Filter, attribute: Option<string>): (r: Result<bool, FilterError>)
    ensures r.Err? <==> attribute.None? || OperatorOf(f.operation).None?
    ensures r.Ok? ==> (r.value <==> Holds(OperatorOf(f.operation).value, attribute.value, f.value))
  {
    if attribute.None? then Err(MissingAttribute)
    else if OperatorOf(f.operation).None? then Err(UnknownOperator)
    else Ok(Holds(OperatorOf(f.operation).value, attribute.value, f.value))
  }

  /** Whether record `x` passes filter `f`. */
  predicate Passes<T>(f: Filter, attr: T -> Option<string>, x: T) {
    Test(f, attr(x)) == Ok(true)
  }

  /** What `apply` returns on `xs`: the passing records in their order, or
      the error the first record that cannot be tested raises. */
  function Filtered<T>(f: Filter, xs: seq<T>, attr: T -> Option<string>): Result<seq<T>, FilterError>
    decreases |xs|
  {
    if xs == [] then Ok([])
    else Step(f, Filtered(f, xs[..|xs| - 1], attr), attr(xs[|xs| - 1]), xs[|xs| - 1])
  }

  /** One step of `apply`: the records kept so far, extended by `x` when its
      attribute text passes; an earlier error is kept. */
  function Step<T>(f: Filter, kept: Result<seq<T>, FilterError>, attribute: Option<string>, x: T): Result<seq<T>, FilterError> {
    match kept
    case Err(e) => Err(e)
    case Ok(k) =>
      match Test(f, attribute)
      case Err(e) => Err(e)
      case Ok(keep) => Ok(if keep then k + [x] else k)
  }

  /** Filtering one more record is one more step. */
  lemma FilteredSnoc<T>(f: Filter, xs: seq<T>, x: T, attr: T -> Option<string>)
    ensures Filtered(f, xs + [x], attr) == Step(f, Filtered(f, xs, attr), attr(x), x)
  {
    assert (xs + [x])[..|xs|] == xs;
  }

  /** `Filter.apply`: one pass over the records, appending those that pass. */
  method Apply<T>(f: Filter, xs: seq<T>, attr: T -> Option<string>) returns (r: Result<seq<T>, FilterError>)
    ensures r == Filtered(f, xs, attr)
  {
    var kept: seq<T> := [];
    for i := 0 to |xs|
      invariant Filtered(f, xs[..i], attr) == Ok(kept)
    {
      assert xs[..i + 1] == xs[..i] + [xs[i]];
      FilteredSnoc(f, xs[..i], xs[i], attr);
      var verdict := Test(f, attr(xs[i]));
      if verdict.Err? {
        FilteredStops(f, xs, attr, i);
        return Err(verdict.error);
      }
      if verdict.value {
        kept := kept + [xs[i]];
      }
    }
    assert xs[..|xs|] == xs;
    return Ok(kept);
  }

  /** Records after the first that cannot be tested are not looked at. */
  lemma {:induction false} FilteredStops<T>(f: Filter, xs: seq<T>, attr: T -> Option<string>, i: nat)
    requires i < |xs| && Filtered(f, xs[..i + 1], attr).Err?
    ensures Filtered(f, xs, attr) == Filtered(f, xs[..i + 1], attr)
    decreases |xs|
  {
    if |xs| > i + 1 {
      assert xs[..|xs| - 1][..i + 1] == xs[..i + 1];
      FilteredStops(f, xs[..|xs| - 1], attr, i);
    } else {
      assert xs[..i + 1] == xs;
    }
  }

  /** `apply` raises exactly when some record lacks the attribute or, with
      at least one record, the operator symbol is unknown. */
  lemma {:induction false} FilteredFails<T>(f: Filter, xs: seq<T>, attr: T -> Option<string>)
    ensures Filtered(f, xs, attr).Err? <==>
      exists i :: 0 <= i < |xs| && (attr(xs[i]).None? || OperatorOf(f.operation).None?)
    decreases |xs|
  {
    if xs != [] {
      var n := |xs| - 1;
      FilteredFails(f, xs[..n], attr);
      if exists i :: 0 <= i < n && (attr(xs[..n][i]).None? || OperatorOf(f.operation).None?) {
        var i :| 0 <= i < n && (attr(xs[..n][i]).None? || OperatorOf(f.operation).None?);
        assert xs[..n][i] == xs[i];
      }
      if exists i :: 0 <= i < |xs| && (attr(xs[i]).None? || OperatorOf(f.operation).None?) {
        var i :| 0 <= i < |xs| && (attr(xs[i]).None? || OperatorOf(f.operation).None?);
        if i < n {
          assert xs[..n][i] == xs[i];
        }
      }
    }
  }

  /** A record is kept exactly when it is one of the input records and
      passes the filter. */
  lemma {:induction false} FilteredMembers<T>(f: Filter, xs: seq<T>, attr: T -> Option<string>, x: T)
    requires Filtered(f, xs, attr).Ok?
    ensures x in Filtered(f, xs, attr).value <==> x in xs && Passes(f, attr, x)
    decreases |xs|
  {
    if xs != [] {
      var n := |xs| - 1;
      FilteredMembers(f, xs[..n], attr, x);
      assert xs == xs[..n] + [xs[n]];
    }
  }

  /** `xs` keeps the elements of `r` in their relative order. */
  predicate Subsequence<T(==)>(r: seq<T>, xs: seq<T>)
    decreases |xs|
  {
    if r == [] then true
    else if xs == [] then false
    else if r[|r| - 1] == xs[|xs| - 1] then Subsequence(r[..|r| - 1], xs[..|xs| - 1])
    else Subsequence(r, xs[..|xs| - 1])
  }

  /** The kept records appear in the input in the same order, and there
      are no more of them than input records. */
  lemma {:induction false} FilteredSubsequence<T>(f: Filter, xs: seq<T>, attr: T -> Option<string>)
    requires Filtered(f, xs, attr).Ok?
    ensures Subsequence(Filtered(f, xs, attr).value, xs)
    ensures |Filtered(f, xs, attr).value| <= |xs|
    decreases |xs|
  {
    if xs != [] {
      var n := |xs| - 1;
      FilteredSubsequence(f, xs[..n], attr);
      var kept := Filtered(f, xs[..n], attr).value;
      var r := Filtered(f, xs, attr).value;
      if r == kept + [xs[n]] {
        assert r[..|r| - 1] == kept;
      } else {
        assert r == kept;
        SubsequenceSkip(kept, xs);
      }
    }
  }

  /** Dropping the last element of the bigger sequence: a subsequence of the
      prefix is a subsequence of the whole. */
  lemma {:induction false} SubsequenceSkip<T>(r: seq<T>, xs: seq<T>)
    requires xs != [] && Subsequence(r, xs[..|xs| - 1])
    ensures Subsequence(r, xs)
    decreases |xs|, |r|
  {
    var n := |xs| - 1;
    if r != [] && r[|r| - 1] == xs[n] {
      SubsequenceDropLast(r, xs[..n]);
    }
  }

  /** Dropping the last element of a subsequence keeps it a subsequence. */
  lemma {:induction false} SubsequenceDropLast<T>(r: seq<T>, xs: seq<T>)
    requires r != [] && Subsequence(r, xs)
    ensures Subsequence(r[..|r| - 1], xs)
    decreases |xs|, |r|
  {
    var m := |r| - 1;
    if xs != [] {
      var n := |xs| - 1;
      if r[m] == xs[n] {
        if r[..m] != [] {
          SubsequenceSkip(r[..m], xs);
        }
      } else {
        SubsequenceDropLast(r, xs[..n]);
        if r[..m] != [] {
          SubsequenceSkip(r[..m], xs);
        }
      }
    }
  }

  /** Applying a filter to its own output changes nothing. */
  lemma {:induction false} FilteredIdempotent<T>(f: Filter, xs: seq<T>, attr: T -> Option<string>)
    requires Filtered(f, xs, attr).Ok?
    ensures Filtered(f, Filtered(f, xs, attr).value, attr) == Filtered(f, xs, attr)
    decreases |xs|
  {
    if xs != [] {
      var n := |xs| - 1;
      FilteredIdempotent(f, xs[..n], attr);
      var kept := Filtered(f, xs[..n], attr).value;
      var r := Filtered(f, xs, attr).value;
      if r == kept + [xs[n]] {
        assert r[..|r| - 1] == kept && r[|r| - 1] == xs[n];
      }
    }
  }
}

=== FILE: models.dfy ===
/** The two record kinds of the catalogue (starter/models.py): a near-Earth
    object, which owns the ordered list of its close approaches, and an orbit
    path (one close approach), which names its owner by key. Attribute values
    are kept in the textual form the filters compare. */
module Models {
  import opened Wrappers

  /** One row of the data file: column name to cell text. */
  datatype Row = Row(fields: map<string, string>)

  const NAME := "name"
  const ID := "id"
  const HAZARDOUS := "is_potentially_hazardous_asteroid"
  const DIAMETER_MIN := "estimated_diameter_min_kilometers"
  const DIAMETER_MAX := "estimated_diameter_max_kilometers"
  const APPROACH_DATE := "close_approach_date"
  const MISS_DISTANCE := "miss_distance_kilometers"

  /** `str(False)`, the hazard flag of a row without that column. */
  const NOT_HAZARDOUS := "False"
  /** `str(float(0))`, a diameter or distance of a row without that column. */
  const ZERO := "0.0"

  /** `row.get(key)`. */
  function Get(row: Row, key: string): (v: Option<string>)
    ensures v.Some? <==> key in row.fields
    ensures v.Some? ==> v.value == row.fields[key]
  {
    if key in row.fields then Some(row.fields[key]) else None
  }

  /** `row.get(key, default)`. */
  function GetOr(row: Row, key: string, default: string): (v: string)
    ensures key !in row.fields ==> v == default
    ensures key in row.fields ==> v == row.fields[key]
  {
    if key in row.fields then row.fields[key] else default
  }

  /** Python truthiness of an optional string: present and not empty. */
  predicate Truthy(s: Option<string>) {
    s.Some? && s.value != ""
  }

  /** The value of one orbit path. */
  datatype PathRecord = PathRecord(neoName: string, closeApproachDate: Option<string>, missDistanceKm: string)

  /** The value of one near-Earth object, its orbits included. */
  datatype NeoRecord = NeoRecord(
    name: string, id: Option<string>, isHazardous: string,
    diameterMinKm: string, diameterMaxKm: string, orbits: seq<PathRecord>)

  /** The orbit path `OrbitPath(**row)` builds. */
  function PathOf(row: Row): (p: PathRecord)
    requires NAME in row.fields
    ensures p.neoName == row.fields[NAME]
    ensures p.closeApproachDate == Get(row, APPROACH_DATE)
  {
    PathRecord(row.fields[NAME], Get(row, APPROACH_DATE), GetOr(row, MISS_DISTANCE, ZERO))
  }

  /** The object `NearEarthObject(**row)` builds: no orbits yet. */
  function NeoOf(row: Row): (n: NeoRecord)
    requires NAME in row.fields
    ensures n.name == row.fields[NAME] && n.orbits == []
    ensures HAZARDOUS !in row.fields ==> n.isHazardous == NOT_HAZARDOUS
    ensures DIAMETER_MIN !in row.fields ==> n.diameterMinKm == ZERO
  {
    NeoRecord(row.fields[NAME], Get(row, ID), GetOr(row, HAZARDOUS, NOT_HAZARDOUS),
              GetOr(row, DIAMETER_MIN, ZERO), GetOr(row, DIAMETER_MAX, ZERO), [])
  }

  /** One close approach. Never changed after construction; two paths built
      from equal rows are still two paths. */
  class OrbitPath {
    const neoName: string
    const closeApproachDate: Option<string>
    const missDistanceKm: string

    function Record(): PathRecord {
      PathRecord(neoName, closeApproachDate, missDistanceKm)
    }

    constructor (row: Row)
      requires NAME in row.fields
      ensures Record() == PathOf(row)
      ensures neoName == row.fields[NAME]
      ensures closeApproachDate == Get(row, APPROACH_DATE)
      ensures missDistanceKm == GetOr(row, MISS_DISTANCE, ZERO)
    {
      neoName := row.fields[NAME];
      closeApproachDate := Get(row, APPROACH_DATE);
      missDistanceKm := GetOr(row, MISS_DISTANCE, ZERO);
    }
  }

  /** A near-Earth object. Its attributes are fixed at construction; its
      list of orbits grows as rows naming it are loaded. */
  class NearEarthObject {
    const name: string
    const id: Option<string>
    const isHazardous: string
    const diameterMinKm: string
    const diameterMaxKm: string
    var orbits: seq<OrbitPath>

    /** The values of the orbits, in order. */
    ghost function PathRecords(): (ps: seq<PathRecord>)
      reads this
      ensures |ps| == |orbits|
      ensures forall i :: 0 <= i < |orbits| ==> ps[i] == orbits[i].Record()
    {
      seq(|orbits|, i requires 0 <= i < |orbits| reads this => orbits[i].Record())
    }

    ghost function Record(): NeoRecord
      reads this
    {
      NeoRecord(name, id, isHazardous, diameterMinKm, diameterMaxKm, PathRecords())
    }

    constructor (row: Row)
      requires NAME in row.fields
      ensures Record() == NeoOf(row)
      ensures name == row.fields[NAME]
      ensures id == Get(row, ID)
      ensures isHazardous == GetOr(row, HAZARDOUS, NOT_HAZARDOUS)
      ensures diameterMinKm == GetOr(row, DIAMETER_MIN, ZERO)
      ensures diameterMaxKm == GetOr(row, DIAMETER_MAX, ZERO)
      ensures orbits == []
    {
      name := row.fields[NAME];
      id := Get(row, ID);
      isHazardous := GetOr(row, HAZARDOUS, NOT_HAZARDOUS);
      diameterMinKm := GetOr(row, DIAMETER_MIN, ZERO);
      diameterMaxKm := GetOr(row, DIAMETER_MAX, ZERO);
      orbits := [];
    }

    /** Appends one orbit; the earlier ones stay where they were. */
    method UpdateOrbits(orbit: OrbitPath)
      modifies this
      ensures orbits == old(orbits) + [orbit]
      ensures Record() == old(Record()).(orbits := old(Record()).orbits + [orbit.Record()])
    {
      orbits := orbits + [orbit];
    }
  }
}

=== FILE: query.dfy ===
/** Query building (starter/search.py, classes Query and Filter): the
    keyword arguments of a query turn into selectors — a date search, the
    number of results, the parsed filters and the kind of record to return.
    Filter options are first grouped by the record kind that has the field's
    attribute, then each is split at ':' into field, operator and value. */
module Queries {
  import opened Wrappers
  import opened Text
  import opened Models
  import opened Filters

  /** The keyword arguments a `Query` is built from. */
  datatype Query = Query(
    number: int, date: Option<string>, startDate: Option<string>, endDate: Option<string>,
    filter: Option<seq<string>>, returnObject: Option<string>)

  /** `Query.DateSearch`: one exact date, or the two bounds of a range,
      either of which may be missing. */
  datatype DateSearch = Equals(date: string) | Between(start: Option<string>, end: Option<string>)

  /** `Query.Selectors`. */
  datatype Selectors = Selectors(dateSearch: DateSearch, number: int, filters: seq<Filter>, returnObject: Option<Kind>)

  /** Why `build_query` raised: an option names no known field, so
      `hasattr` gets `None` (TypeError), or an option has no ':' and so no
      operator piece (IndexError). */
  datatype QueryError = UnknownField(option: string) | MissingOperator(option: string)

  /** Filter options grouped by kind: the kinds in the order they were first
      met (the key order of the `defaultdict`) and the options of each. */
  datatype Groups = Groups(order: seq<Kind>, groups: map<Kind, seq<string>>)

  const SEPARATOR := ':'

  /** The type name the searcher records: `DateSearch.equals.name` or
      `DateSearch.between.name`. */
  function TypeName(d: DateSearch): (name: string)
    ensures name == "equals" <==> d.Equals?
  {
    if d.Equals? then "equals" else "between"
  }

  /** An exact date when one is given, the range otherwise. */
  function DateSearchOf(q: Query): DateSearch {
    if Truthy(q.date) then Equals(q.date.value) else Between(q.startDate, q.endDate)
  }

  /** `Query.ReturnObjects.get(name)`. */
  function ReturnObjectOf(name: Option<string>): (k: Option<Kind>)
    ensures k == Some(NeoKind) <==> name == Some("NEO")
    ensures k == Some(PathKind) <==> name == Some("Path")
  {
    if name == Some("NEO") then Some(NeoKind)
    else if name == Some("Path") then Some(PathKind)
    else None
  }

  /** The field name of an option: the text before its first ':'. */
  function Head(option: string): string {
    Split(option, SEPARATOR)[0]
  }

  /** Whether the option names a field of `Filter.Options`. */
  predicate Known(option: string) {
    FieldOf(Head(option)).Some?
  }

  /** The kind an option is grouped under, if its field is known and owned. */
  function KindOf(option: string): Option<Kind> {
    match FieldOf(Head(option))
    case None => None
    case Some(f) => OwnerOf(Attribute(f))
  }

  /** Every known field is owned by one of the two kinds. */
  lemma KnownOwned(option: string)
    ensures KindOf(option).Some? <==> Known(option)
  {
    FieldOwners();
  }

  /** `data[k]` of the `defaultdict`: a kind never met has no options. */
  function GroupOf(g: Groups, k: Kind): seq<string> {
    if k in g.groups then g.groups[k] else []
  }

  /** `data[k].append(option)`. */
  function AddOption(g: Groups, k: Kind, option: string): Groups {
    if k in g.groups then Groups(g.order, g.groups[k := g.groups[k] + [option]])
    else Groups(g.order + [k], g.groups[k := [option]])
  }

  /** What `Filter.create_filter_options` returns: the options grouped by
      kind in input order, or the error of the first unknown field. */
  function Grouped(options: seq<string>): Result<Groups, QueryError>
    decreases |options|
  {
    if options == [] then Ok(Groups([], map[]))
    else GroupStep(Grouped(options[..|options| - 1]), options[|options| - 1])
  }

  /** One option of `create_filter_options`: an unknown field raises, an
      owned one is appended to its kind's group; an earlier error is kept. */
  function GroupStep(acc: Result<Groups, QueryError>, option: string): (r: Result<Groups, QueryError>)
    ensures r.Err? <==> acc.Err? || !Known(option)
  {
    match acc
    case Err(e) => Err(e)
    case Ok(g) =>
      match FieldOf(Head(option))
      case None => Err(UnknownField(option))
      case Some(f) =>
        match OwnerOf(Attribute(f))
        case None => Ok(g)
        case Some(k) => Ok(AddOption(g, k, option))
  }

  /** `Filter.create_filter_options`: one pass over the options. */
  method CreateFilterOptions(options: seq<string>) returns (r: Result<Groups, QueryError>)
    ensures r == Grouped(options)
  {
    var g := Groups([], map[]);
    for i := 0 to |options|
      invariant Grouped(options[..i]) == Ok(g)
    {
      assert options[..i + 1][..i] == options[..i];
      var option := options[i];
      var field := FieldOf(Head(option));
      if field.None? {
        GroupedStops(options, i);
        return Err(UnknownField(option));
      }
      var owner := OwnerOf(Attribute(field.value));
      if owner.Some? {
        g := AddOption(g, owner.value, option);
      }
    }
    assert options[..|options|] == options;
    return Ok(g);
  }

  /** Options after the first unknown one are not looked at. */
  lemma {:induction false} GroupedStops(options: seq<string>, i: nat)
    requires i < |options| && Grouped(options[..i + 1]).Err?
    ensures Grouped(options) == Grouped(options[..i + 1])
    decreases |options|
  {
    if |options| > i + 1 {
      assert options[..|options| - 1][..i + 1] == options[..i + 1];
      GroupedStops(options[..|options| - 1], i);
    } else {
      assert options[..i + 1] == options;
    }
  }

  /** The options of kind `k`, in input order. */
  function OfKind(options: seq<string>, k: Kind): seq<string>
    decreases |options|
  {
    if options == [] then []
    else
      var option := options[|options| - 1];
      OfKind(options[..|options| - 1], k) + if KindOf(option) == Some(k) then [option] else []
  }

  /** An option is of kind `k` exactly when it is among the options and its
      field's attribute belongs to `k`. */
  lemma {:induction false} OfKindMembers(options: seq<string>, k: Kind, option: string)
    ensures option in OfKind(options, k) <==> option in options && KindOf(option) == Some(k)
    decreases |options|
  {
    if options != [] {
      var n := |options| - 1;
      OfKindMembers(options[..n], k, option);
      assert options == options[..n] + [options[n]];
    }
  }

  /** When every field is known, each option is of exactly one kind, so the
      two groups together hold as many options as the input. */
  lemma {:induction false} OfKindPartition(options: seq<string>)
    requires forall o :: o in options ==> Known(o)
    ensures |OfKind(options, NeoKind)| + |OfKind(options, PathKind)| == |options|
    decreases |options|
  {
    if options != [] {
      var n := |options| - 1;
      assert options == options[..n] + [options[n]];
      OfKindPartition(options[..n]);
      KnownOwned(options[n]);
    }
  }

  /** Grouping fails exactly when some option names an unknown field. */
  lemma {:induction false} GroupedFails(options: seq<string>)
    ensures Grouped(options).Err? <==> exists o :: o in options && !Known(o)
    decreases |options|
  {
    if options != [] {
      var n := |options| - 1;
      var prefix := options[..n];
      GroupedFails(prefix);
      assert options == prefix + [options[n]];
      if Grouped(prefix).Err? {
        var o :| o in prefix && !Known(o);
        assert o in options;
      } else if !Known(options[n]) {
      } else {
        forall o | o in options ensures Known(o) {
          if o != options[n] {
            assert o in prefix;
          }
        }
      }
    }
  }

  /** The key order lists each kind once, exactly the kinds with options. */
  ghost predicate WellGrouped(g: Groups) {
    (forall k :: k in g.groups <==> k in g.order) &&
    (forall i, j :: 0 <= i < j < |g.order| ==> g.order[i] != g.order[j]) &&
    (forall k :: k in g.groups ==> g.groups[k] != [])
  }

  /** Grouping partitions the options: the group of each kind is the
      options of that kind in input order, and the key order lists the kinds
      met, each once. */
  lemma {:induction false} GroupedPartition(options: seq<string>)
    requires Grouped(options).Ok?
    ensures WellGrouped(Grouped(options).value)
    ensures forall k :: GroupOf(Grouped(options).value, k) == OfKind(options, k)
    decreases |options|
  {
    if options != [] {
      var n := |options| - 1;
      GroupedPartition(options[..n]);
      var g := Grouped(options[..n]).value;
      var option := options[n];
      KnownOwned(option);
      var k := KindOf(option).value;
      assert Grouped(options) == Ok(AddOption(g, k, option));
      var h := AddOption(g, k, option);
      forall k' ensures GroupOf(h, k') == OfKind(options, k') {
        assert OfKind(options, k') == OfKind(options[..n], k') + if k' == k then [option] else [];
      }
      if k !in g.groups {
        assert k !in g.order;
        forall i, j | 0 <= i < j < |h.order| ensures h.order[i] != h.order[j] {
          if j == |g.order| {
            assert h.order[i] == g.order[i];
          }
        }
      }
    }
  }

  /** `Filter(option, k, operation, value)` from one option: the field is
      the first piece, the operator the second, the value the last. */
  function FilterOf(option: string, k: Kind): Result<Filter, QueryError> {
    var pieces := Split(option, SEPARATOR);
    if |pieces| < 2 then Err(MissingOperator(option))
    else
      match FieldOf(pieces[0])
      case None => Err(UnknownField(option))
      case Some(f) => Ok(Filter(f, k, pieces[1], pieces[|pieces| - 1]))
  }

  /** An option parses exactly when its field is known and it holds a ':';
      the filter keeps the kind it was grouped under. */
  lemma FilterOfFails(option: string, k: Kind)
    ensures FilterOf(option, k).Err? <==> !Known(option) || SEPARATOR !in option
    ensures FilterOf(option, k).Ok? ==> FilterOf(option, k).value.kind == k
  {
    SplitPieces(option, SEPARATOR);
  }

  /** Parsing undoes writing: a name joined by ':' to an operator and
      further pieces gives back the name's field, the operator as the second
      piece and the value as the last; pieces in between are ignored. */
  lemma FilterOfJoin(name: string, k: Kind, rest: seq<string>)
    requires SEPARATOR !in name && |rest| >= 1
    requires forall i :: 0 <= i < |rest| ==> SEPARATOR !in rest[i]
    ensures var r := FilterOf(Join([name] + rest, SEPARATOR), k);
      (r.Ok? <==> FieldOf(name).Some?) &&
      (r.Ok? ==> r.value == Filter(FieldOf(name).value, k, rest[0], rest[|rest| - 1]))
  {
    var pieces := [name] + rest;
    forall i | 0 <= i < |pieces| ensures SEPARATOR !in pieces[i] {
      if i > 0 {
        assert pieces[i] == rest[i - 1];
      }
    }
    SplitJoin(pieces, SEPARATOR);
    FilterOfPieces(Join(pieces, SEPARATOR), k, name, rest);
  }

  /** A filter written as `field:operator:value` parses back to itself. */
  lemma FilterRoundTrip(f: Field, k: Kind, operation: string, value: string)
    requires SEPARATOR !in operation && SEPARATOR !in value
    ensures FilterOf(Join([FieldName(f), operation, value], SEPARATOR), k) == Ok(Filter(f, k, operation, value))
  {
    var name := FieldName(f);
    FieldNames(f, name);
    KnownNameUnbroken(name);
    assert [name, operation, value] == [name] + [operation, value];
    FilterOfJoin(name, k, [operation, value]);
  }

  /** `FilterOf` read off the pieces of the option. */
  lemma FilterOfPieces(option: string, k: Kind, name: string, rest: seq<string>)
    requires Split(option, SEPARATOR) == [name] + rest && |rest| >= 1
    ensures var r := FilterOf(option, k);
      (r.Ok? <==> FieldOf(name).Some?) &&
      (r.Ok? ==> r.value == Filter(FieldOf(name).value, k, rest[0], rest[|rest| - 1]))
  {
    var pieces := [name] + rest;
    var last := |rest| - 1;
    assert pieces[0] == name && pieces[1] == rest[0] && pieces[last + 1] == rest[last];
  }

  /** No field name holds the separator. */
  lemma KnownNameUnbroken(name: string)
    requires FieldOf(name).Some?
    ensures SEPARATOR !in name
  {
    FieldNames(FieldOf(name).value, name);
    match FieldOf(name).value
    case Diameter => assert name == "diameter";
    case Distance => assert name == "distance";
    case IsHazardous => assert name == "is_hazardous";
  }

  /** The filters of one group, parsed in order, or the first error. */
  function Parsed(options: seq<string>, k: Kind): Result<seq<Filter>, QueryError>
    decreases |options|
  {
    if options == [] then Ok([])
    else
      match Parsed(options[..|options| - 1], k)
      case Err(e) => Err(e)
      case Ok(fs) =>
        match FilterOf(options[|options| - 1], k)
        case Err(e) => Err(e)
        case Ok(x) => Ok(fs + [x])
  }

  /** Parsing a group fails exactly when one of its options does. */
  lemma {:induction false} ParsedFails(options: seq<string>, k: Kind)
    ensures Parsed(options, k).Err? <==> exists o :: o in options && FilterOf(o, k).Err?
    decreases |options|
  {
    if options != [] {
      var n := |options| - 1;
      var prefix := options[..n];
      ParsedFails(prefix, k);
      assert options == prefix + [options[n]];
      if Parsed(prefix, k).Err? {
        var o :| o in prefix && FilterOf(o, k).Err?;
        assert o in options;
      } else if FilterOf(options[n], k).Err? {
      } else {
        forall o | o in options ensures FilterOf(o, k).Ok? {
          if o != options[n] {
            assert o in prefix;
          }
        }
      }
    }
  }

  /** A parsed group has one filter per option, each of the group's kind. */
  lemma {:induction false} ParsedKinds(options: seq<string>, k: Kind)
    requires Parsed(options, k).Ok?
    ensures |Parsed(options, k).value| == |options|
    ensures forall f :: f in Parsed(options, k).value ==> f.kind == k
    decreases |options|
  {
    if options != [] {
      var n := |options| - 1;
      ParsedKinds(options[..n], k);
      FilterOfFails(options[n], k);
    }
  }

  /** A parsed group has one filter per option, in the same order. */
  lemma {:induction false} ParsedValues(options: seq<string>, k: Kind)
    requires Parsed(options, k).Ok?
    ensures |Parsed(options, k).value| == |options|
    ensures forall i :: 0 <= i < |options| ==> FilterOf(options[i], k) == Ok(Parsed(options, k).value[i])
    decreases |options|
  {
    if options != [] {
      var n := |options| - 1;
      var prefix := options[..n];
      ParsedValues(prefix, k);
      var fs := Parsed(prefix, k).value;
      var x := FilterOf(options[n], k).value;
      var r := Parsed(options, k).value;
      assert r == fs + [x];
      forall i | 0 <= i < |options| ensures FilterOf(options[i], k) == Ok(r[i]) {
        if i < n {
          assert prefix[i] == options[i];
          assert r[i] == fs[i];
        } else {
          assert r[i] == x;
        }
      }
    }
  }

  /** Options after the first bad one in a group are not looked at. */
  lemma {:induction false} ParsedStops(options: seq<string>, k: Kind, i: nat)
    requires i < |options| && Parsed(options[..i + 1], k).Err?
    ensures Parsed(options, k) == Parsed(options[..i + 1], k)
    decreases |options|
  {
    if |options| > i + 1 {
      assert options[..|options| - 1][..i + 1] == options[..i + 1];
      ParsedStops(options[..|options| - 1], k, i);
    } else {
      assert options[..i + 1] == options;
    }
  }

  /** The inner loop of `build_query`: the filters of one group. */
  method ParseGroup(options: seq<string>, k: Kind) returns (r: Result<seq<Filter>, QueryError>)
    ensures r == Parsed(options, k)
  {
    var filters: seq<Filter> := [];
    for i := 0 to |options|
      invariant Parsed(options[..i], k) == Ok(filters)
    {
      assert options[..i + 1][..i] == options[..i];
      var pieces := Split(options[i], SEPARATOR);
      if |pieces| < 2 {
        ParsedStops(options, k, i);
        return Err(MissingOperator(options[i]));
      }
      var field := FieldOf(pieces[0]);
      if field.None? {
        ParsedStops(options, k, i);
        return Err(UnknownField(options[i]));
      }
      filters := filters + [Filter(field.value, k, pieces[1], pieces[|pieces| - 1])];
    }
    assert options[..|options|] == options;
    return Ok(filters);
  }

  /** The filters of the groups in key order, or the first error. */
  function Assembled(order: seq<Kind>, g: Groups): Result<seq<Filter>, QueryError>
    decreases |order|
  {
    if order == [] then Ok([])
    else
      var k := order[|order| - 1];
      match Assembled(order[..|order| - 1], g)
      case Err(e) => Err(e)
      case Ok(fs) =>
        match Parsed(GroupOf(g, k), k)
        case Err(e) => Err(e)
        case Ok(more) => Ok(fs + more)
  }

  /** Groups after the first bad one are not looked at. */
  lemma {:induction false} AssembledStops(order: seq<Kind>, g: Groups, j: nat)
    requires j < |order| && Assembled(order[..j + 1], g).Err?
    ensures Assembled(order, g) == Assembled(order[..j + 1], g)
    decreases |order|
  {
    if |order| > j + 1 {
      assert order[..|order| - 1][..j + 1] == order[..j + 1];
      AssembledStops(order[..|order| - 1], g, j);
    } else {
      assert order[..j + 1] == order;
    }
  }

  /** Assembling fails exactly when the group of some listed kind does not
      parse. */
  lemma {:induction false} AssembledFails(order: seq<Kind>, g: Groups)
    ensures Assembled(order, g).Err? <==> exists k :: k in order && Parsed(GroupOf(g, k), k).Err?
    decreases |order|
  {
    if order != [] {
      var n := |order| - 1;
      var prefix := order[..n];
      AssembledFails(prefix, g);
      assert order == prefix + [order[n]];
      if Assembled(prefix, g).Err? {
        var k :| k in prefix && Parsed(GroupOf(g, k), k).Err?;
        assert k in order;
      } else if Parsed(GroupOf(g, order[n]), order[n]).Err? {
      } else {
        forall k | k in order ensures Parsed(GroupOf(g, k), k).Ok? {
          if k != order[n] {
            assert k in prefix;
          }
        }
      }
    }
  }

  /** The filters of kind `k` among `fs`, in order. */
  function KindFilters(fs: seq<Filter>, k: Kind): seq<Filter>
    decreases |fs|
  {
    if fs == [] then []
    else KindFilters(fs[..|fs| - 1], k) + if fs[|fs| - 1].kind == k then [fs[|fs| - 1]] else []
  }

  /** Selecting by kind distributes over concatenation. */
  lemma {:induction false} KindFiltersAppend(a: seq<Filter>, b: seq<Filter>, k: Kind)
    ensures KindFilters(a + b, k) == KindFilters(a, k) + KindFilters(b, k)
    decreases |b|
  {
    if b == [] {
      assert a + b == a;
    } else {
      var n := |b| - 1;
      assert (a + b)[..|a + b| - 1] == a + b[..n];
      KindFiltersAppend(a, b[..n], k);
    }
  }

  /** Selecting by kind from filters all of one kind keeps them all or
      none. */
  lemma {:induction false} KindFiltersUniform(fs: seq<Filter>, kind: Kind, k: Kind)
    requires forall f :: f in fs ==> f.kind == kind
    ensures KindFilters(fs, k) == if k == kind then fs else []
    decreases |fs|
  {
    if fs != [] {
      var n := |fs| - 1;
      assert fs == fs[..n] + [fs[n]];
      KindFiltersUniform(fs[..n], kind, k);
    }
  }

  /** Appending filters all of kind `last` adds them to the selection of
      `last` and leaves the selection of any other kind as it was. */
  lemma KindFiltersExtend(fs: seq<Filter>, more: seq<Filter>, last: Kind, k: Kind)
    requires forall f :: f in more ==> f.kind == last
    ensures KindFilters(fs + more, k) == KindFilters(fs, k) + if k == last then more else []
  {
    KindFiltersAppend(fs, more, k);
    KindFiltersUniform(more, last, k);
    if k != last {
      assert KindFilters(fs, k) + [] == KindFilters(fs, k);
    }
  }

  /** Each filter is of one of the two kinds. */
  lemma {:induction false} KindFiltersCount(fs: seq<Filter>)
    ensures |KindFilters(fs, NeoKind)| + |KindFilters(fs, PathKind)| == |fs|
    decreases |fs|
  {
    if fs != [] {
      KindFiltersCount(fs[..|fs| - 1]);
    }
  }

  /** No kind is listed twice. */
  predicate Distinct(order: seq<Kind>) {
    forall i, j :: 0 <= i < j < |order| ==> order[i] != order[j]
  }

  /** Dropping the last kind of a distinct list leaves a distinct list
      without that kind. */
  lemma DistinctPrefix(order: seq<Kind>)
    requires Distinct(order) && order != []
    ensures Distinct(order[..|order| - 1])
    ensures order[|order| - 1] !in order[..|order| - 1]
  {
    var n := |order| - 1;
    var prefix := order[..n];
    forall i, j | 0 <= i < j < |prefix| ensures prefix[i] != prefix[j] {
      assert prefix[i] == order[i] && prefix[j] == order[j];
    }
    forall i | 0 <= i < n ensures prefix[i] != order[n] {
      assert prefix[i] == order[i];
    }
  }

  /** The assembled filters of a list of kinds are those of all but the last
      kind followed by the parsed group of the last. */
  lemma AssembledLast(order: seq<Kind>, g: Groups)
    requires order != [] && Assembled(order, g).Ok?
    ensures var last := order[|order| - 1];
      Assembled(order[..|order| - 1], g).Ok? && Parsed(GroupOf(g, last), last).Ok? &&
      Assembled(order, g).value ==
        Assembled(order[..|order| - 1], g).value + Parsed(GroupOf(g, last), last).value
  {
  }

  /** A kind that is not listed has no assembled filters. */
  lemma {:induction false} AssembledUnlisted(order: seq<Kind>, g: Groups, k: Kind)
    requires Assembled(order, g).Ok? && k !in order
    ensures KindFilters(Assembled(order, g).value, k) == []
    decreases |order|
  {
    if order != [] {
      var n := |order| - 1;
      var last := order[n];
      AssembledLast(order, g);
      AssembledUnlisted(order[..n], g, k);
      ParsedKinds(GroupOf(g, last), last);
      KindFiltersExtend(Assembled(order[..n], g).value, Parsed(GroupOf(g, last), last).value, last, k);
    }
  }

  /** In the assembled filters, those of a kind listed once are the parsed
      group of that kind. */
  lemma {:induction false} AssembledKinds(order: seq<Kind>, g: Groups, k: Kind)
    requires Distinct(order) && k in order
    requires Assembled(order, g).Ok?
    ensures Parsed(GroupOf(g, k), k).Ok?
    ensures KindFilters(Assembled(order, g).value, k) == Parsed(GroupOf(g, k), k).value
    decreases |order|
  {
    var n := |order| - 1;
    var prefix := order[..n];
    var last := order[n];
    DistinctPrefix(order);
    AssembledLast(order, g);
    var fs := Assembled(prefix, g).value;
    var more := Parsed(GroupOf(g, last), last).value;
    ParsedKinds(GroupOf(g, last), last);
    KindFiltersExtend(fs, more, last, k);
    if k == last {
      AssembledUnlisted(prefix, g, k);
    } else {
      assert order == prefix + [last];
      AssembledKinds(prefix, g, k);
    }
  }

  /** The filters `build_query` makes from a non-empty option list. */
  function FiltersOf(options: seq<string>): Result<seq<Filter>, QueryError> {
    match Grouped(options)
    case Err(e) => Err(e)
    case Ok(g) => Assembled(g.order, g)
  }

  /** A group that does not parse holds an option without a ':'. */
  lemma GroupBreaks(options: seq<string>, k: Kind)
    requires Grouped(options).Ok? && Parsed(GroupOf(Grouped(options).value, k), k).Err?
    ensures exists o :: o in options && SEPARATOR !in o
  {
    var g := Grouped(options).value;
    GroupedFails(options);
    GroupedPartition(options);
    ParsedFails(GroupOf(g, k), k);
    var option :| option in GroupOf(g, k) && FilterOf(option, k).Err?;
    OfKindMembers(options, k, option);
    FilterOfFails(option, k);
  }

  /** An option without a ':' breaks the group of its kind, and that kind
      is listed. */
  lemma OptionBreaks(options: seq<string>, option: string)
    requires Grouped(options).Ok? && option in options && SEPARATOR !in option
    ensures var g := Grouped(options).value;
      exists k :: k in g.order && Parsed(GroupOf(g, k), k).Err?
  {
    var g := Grouped(options).value;
    GroupedFails(options);
    GroupedPartition(options);
    KnownOwned(option);
    var k := KindOf(option).value;
    OfKindMembers(options, k, option);
    assert k in g.groups;
    FilterOfFails(option, k);
    ParsedFails(GroupOf(g, k), k);
  }

  /** The options yield filters exactly when every option names a known
      field and holds a ':'; then there is one filter per option, and the
      filters of each kind are that kind's options parsed in input order. */
  lemma FiltersOfFacts(options: seq<string>)
    ensures FiltersOf(options).Err? <==>
      exists o :: o in options && (!Known(o) || SEPARATOR !in o)
    ensures FiltersOf(options).Ok? ==>
      |FiltersOf(options).value| == |options| &&
      forall k :: (Parsed(OfKind(options, k), k).Ok? &&
        KindFilters(FiltersOf(options).value, k) == Parsed(OfKind(options, k), k).value)
  {
    FiltersOfFails(options);
    if FiltersOf(options).Ok? {
      FiltersOfKinds(options);
      FiltersOfCount(options);
    }
  }

  /** The error half of `FiltersOfFacts`. */
  lemma FiltersOfFails(options: seq<string>)
    ensures FiltersOf(options).Err? <==>
      exists o :: o in options && (!Known(o) || SEPARATOR !in o)
  {
    GroupedFails(options);
    if Grouped(options).Ok? {
      var g := Grouped(options).value;
      GroupedPartition(options);
      AssembledFails(g.order, g);
      if Assembled(g.order, g).Err? {
        var k :| k in g.order && Parsed(GroupOf(g, k), k).Err?;
        GroupBreaks(options, k);
      } else if exists o :: o in options && SEPARATOR !in o {
        var o :| o in options && SEPARATOR !in o;
        OptionBreaks(options, o);
      }
    }
  }

  /** On success, the filters of each kind are that kind's options parsed
      in order. */
  lemma FiltersOfKinds(options: seq<string>)
    requires FiltersOf(options).Ok?
    ensures forall k :: (Parsed(OfKind(options, k), k).Ok? &&
      KindFilters(FiltersOf(options).value, k) == Parsed(OfKind(options, k), k).value)
  {
    var g := Grouped(options).value;
    GroupedPartition(options);
    var fs := FiltersOf(options).value;
    forall k ensures Parsed(OfKind(options, k), k).Ok? && KindFilters(fs, k) == Parsed(OfKind(options, k), k).value {
      if k in g.order {
        AssembledKinds(g.order, g, k);
      } else {
        AssembledUnlisted(g.order, g, k);
        assert GroupOf(g, k) == [];
      }
    }
  }

  /** On success, there is one filter per option. */
  lemma FiltersOfCount(options: seq<string>)
    requires FiltersOf(options).Ok?
    ensures |FiltersOf(options).value| == |options|
  {
    var fs := FiltersOf(options).value;
    FiltersOfFails(options);
    assert forall o :: o in options ==> Known(o);
    OfKindPartition(options);
    FiltersOfKinds(options);
    var neos, paths := OfKind(options, NeoKind), OfKind(options, PathKind);
    assert KindFilters(fs, NeoKind) == Parsed(neos, NeoKind).value;
    assert KindFilters(fs, PathKind) == Parsed(paths, PathKind).value;
    ParsedKinds(neos, NeoKind);
    ParsedKinds(paths, PathKind);
    KindFiltersCount(fs);
  }

  /** Whether the filter list is truthy: given and not empty. */
  predicate Given(filter: Option<seq<string>>) {
    filter.Some? && filter.value != []
  }

  /** What `Query.build_query` returns. */
  function Built(q: Query): Result<Selectors, QueryError> {
    var filters := if Given(q.filter) then FiltersOf(q.filter.value) else Ok([]);
    match filters
    case Err(e) => Err(e)
    case Ok(fs) => Ok(Selectors(DateSearchOf(q), q.number, fs, ReturnObjectOf(q.returnObject)))
  }

  /** `Query.build_query`: group the options, then parse each group in key
      order. */
  method BuildQuery(q: Query) returns (r: Result<Selectors, QueryError>)
    ensures r == Built(q)
  {
    var filters: seq<Filter> := [];
    if Given(q.filter) {
      var grouped := CreateFilterOptions(q.filter.value);
      if grouped.Err? {
        return Err(grouped.error);
      }
      var g := grouped.value;
      for j := 0 to |g.order|
        invariant Assembled(g.order[..j], g) == Ok(filters)
      {
        assert g.order[..j + 1][..j] == g.order[..j];
        var k := g.order[j];
        var parsed := ParseGroup(GroupOf(g, k), k);
        if parsed.Err? {
          AssembledStops(g.order, g, j);
          return Err(parsed.error);
        }
        filters := filters + parsed.value;
      }
      assert g.order[..|g.order|] == g.order;
    }
    return Ok(Selectors(DateSearchOf(q), q.number, filters, ReturnObjectOf(q.returnObject)));
  }

  /** `build_query` raises exactly when the filter list is truthy and some
      option names an unknown field or lacks a ':'. Otherwise the selectors
      carry the number unchanged, an exact-date search exactly when a date
      is given, the mapped return kind, one filter per option, and the
      filters of each kind in the order their options were given. */
  lemma BuiltSelectors(q: Query)
    ensures Built(q).Err? <==> (Given(q.filter) &&
      exists o :: o in q.filter.value && (!Known(o) || SEPARATOR !in o))
    ensures Built(q).Ok? ==>
      var s := Built(q).value;
      s.number == q.number &&
      (s.dateSearch.Equals? <==> Truthy(q.date)) &&
      (s.dateSearch.Equals? ==> Some(s.dateSearch.date) == q.date) &&
      (s.dateSearch.Between? ==> s.dateSearch.start == q.startDate && s.dateSearch.end == q.endDate) &&
      s.returnObject == ReturnObjectOf(q.returnObject) &&
      |s.filters| == (if Given(q.filter) then |q.filter.value| else 0) &&
      (Given(q.filter) ==> forall k :: (Parsed(OfKind(q.filter.value, k), k).Ok? &&
        KindFilters(s.filters, k) == Parsed(OfKind(q.filter.value, k), k).value))
  {
    if Given(q.filter) {
      FiltersOfFacts(q.filter.value);
    }
  }
}

=== FILE: searcher.dfy ===
/** The searcher (starter/search.py, class NEOSearcher): it keeps a copy of
    the catalogue's date index, selects the objects of one date or of a range
    of dates, applies the non-distance filters to them, gathers their orbit
    paths, applies the last distance filter to those paths (and then takes
    the objects back from the paths by name), removes duplicates and returns
    the requested number of objects or paths. */
module Searcher {
  import opened Wrappers
  import opened Text
  import opened Models
  import opened Database
  import opened Filters
  import opened Queries
  import CatalogLoad

  /** Why `get_objects` raised: a range bound is `None` where it is
      compared with a date (TypeError), or a filter raised. */
  datatype SearchError = MissingBound | BadFilter(error: FilterError)

  /** What `get_objects` returns: objects (an orbit path whose owner is not
      in the name index gives `None`), or orbit paths. */
  datatype Answer = Objects(neos: seq<Option<NearEarthObject>>) | Paths(paths: seq<OrbitPath>)

  /** The de-duplicated objects and orbit paths the answer is drawn from. */
  datatype Found = Found(neos: set<Option<NearEarthObject>>, paths: set<OrbitPath>)

  /** The list of a date, empty for a date not in the index. */
  function BucketOf(buckets: map<string, seq<NearEarthObject>>, date: string): seq<NearEarthObject> {
    if date in buckets then buckets[date] else []
  }

  /** Every object filed under some date of the index. */
  ghost function AllNeos(index: OrbitDates): set<NearEarthObject> {
    set d, n | d in index.buckets && n in index.buckets[d] :: n
  }

  // ---------------------------------------------------------------------
  // Date search

  /** `return_date_search_equal` over the keys `keys`, in order: the lists
      of the keys equal to `date`, concatenated. */
  function EqualIn(keys: seq<string>, buckets: map<string, seq<NearEarthObject>>, date: string): seq<NearEarthObject>
    decreases |keys|
  {
    if keys == [] then []
    else
      var k := keys[|keys| - 1];
      EqualIn(keys[..|keys| - 1], buckets, date) + if k == date then BucketOf(buckets, k) else []
  }

  /** What `return_date_search_equal` returns on the searcher's index. */
  function DateEqual(index: OrbitDates, date: string): seq<NearEarthObject> {
    EqualIn(index.order, index.buckets, date)
  }

  /** `NEOSearcher.return_date_search_equal`. */
  method ReturnDateSearchEqual(orbitPath: OrbitDates, date: string) returns (neos: seq<NearEarthObject>)
    ensures neos == DateEqual(orbitPath, date)
  {
    neos := [];
    for i := 0 to |orbitPath.order|
      invariant neos == EqualIn(orbitPath.order[..i], orbitPath.buckets, date)
    {
      assert orbitPath.order[..i + 1][..i] == orbitPath.order[..i];
      var k := orbitPath.order[i];
      neos := if k == date then neos + orbitPath.buckets[k] else neos;
    }
    assert orbitPath.order[..|orbitPath.order|] == orbitPath.order;
  }

  /** Over keys listed once each, the equal-date search is the list of
      that date, or nothing when the date is not listed. */
  lemma {:induction false} EqualInBucket(keys: seq<string>, buckets: map<string, seq<NearEarthObject>>, date: string)
    requires forall i, j :: 0 <= i < j < |keys| ==> keys[i] != keys[j]
    ensures EqualIn(keys, buckets, date) == if date in keys then BucketOf(buckets, date) else []
    decreases |keys|
  {
    if keys != [] {
      var n := |keys| - 1;
      EqualInBucket(keys[..n], buckets, date);
      assert keys == keys[..n] + [keys[n]];
      if keys[n] == date {
        assert date !in keys[..n];
      }
    }
  }

  /** The equal-date search gives exactly the list filed under that date. */
  lemma DateEqualBucket(index: OrbitDates, date: string)
    ensures DateEqual(index, date) == BucketOf(index.buckets, date)
  {
    EqualInBucket(index.order, index.buckets, date);
  }

  /** `start_date <= k <= end_date` for one key: comparing `None` with a
      date raises, and the second comparison is made only when the first
      holds. */
  function InRange(start: Option<string>, end: Option<string>, k: string): Result<bool, SearchError> {
    if start.None? then Err(MissingBound)
    else if !LessEq(start.value, k) then Ok(false)
    else if end.None? then Err(MissingBound)
    else Ok(LessEq(k, end.value))
  }

  /** `return_date_search_between` over the keys `keys`, in order: the lists
      of the keys in the range, concatenated, or the first error. */
  function BetweenIn(keys: seq<string>, buckets: map<string, seq<NearEarthObject>>, start: Option<string>, end: Option<string>)
    : Result<seq<NearEarthObject>, SearchError>
    decreases |keys|
  {
    if keys == [] then Ok([])
    else BetweenStep(BetweenIn(keys[..|keys| - 1], buckets, start, end), buckets, start, end, keys[|keys| - 1])
  }

  /** One key of the range search: its list is added when the key is in
      the range; an earlier error is kept. */
  function BetweenStep(acc: Result<seq<NearEarthObject>, SearchError>, buckets: map<string, seq<NearEarthObject>>,
                       start: Option<string>, end: Option<string>, k: string): Result<seq<NearEarthObject>, SearchError>
  {
    match acc
    case Err(e) => Err(e)
    case Ok(neos) =>
      match InRange(start, end, k)
      case Err(e) => Err(e)
      case Ok(inside) => Ok(neos + if inside then BucketOf(buckets, k) else [])
  }

  /** One more key of the range search. */
  lemma BetweenSnoc(keys: seq<string>, k: string, buckets: map<string, seq<NearEarthObject>>, start: Option<string>, end: Option<string>)
    ensures BetweenIn(keys + [k], buckets, start, end) == BetweenStep(BetweenIn(keys, buckets, start, end), buckets, start, end, k)
  {
    assert (keys + [k])[..|keys|] == keys;
  }

  /** What `return_date_search_between` returns on the searcher's index. */
  function DateBetween(index: OrbitDates, start: Option<string>, end: Option<string>): Result<seq<NearEarthObject>, SearchError> {
    BetweenIn(index.order, index.buckets, start, end)
  }

  /** Keys after the first that cannot be compared are not looked at. */
  lemma {:induction false} BetweenStops(keys: seq<string>, buckets: map<string, seq<NearEarthObject>>, start: Option<string>, end: Option<string>, i: nat)
    requires i < |keys| && BetweenIn(keys[..i + 1], buckets, start, end).Err?
    ensures BetweenIn(keys, buckets, start, end) == BetweenIn(keys[..i + 1], buckets, start, end)
    decreases |keys|
  {
    if |keys| > i + 1 {
      assert keys[..|keys| - 1][..i + 1] == keys[..i + 1];
      BetweenStops(keys[..|keys| - 1], buckets, start, end, i);
    } else {
      assert keys[..i + 1] == keys;
    }
  }

  /** `NEOSearcher.return_date_search_between`. */
  method ReturnDateSearchBetween(orbitPath: OrbitDates, start: Option<string>, end: Option<string>)
    returns (r: Result<seq<NearEarthObject>, SearchError>)
    ensures r == DateBetween(orbitPath, start, end)
  {
    var neos: seq<NearEarthObject> := [];
    var keys := orbitPath.order;
    for i := 0 to |keys|
      invariant BetweenIn(keys[..i], orbitPath.buckets, start, end) == Ok(neos)
    {
      assert keys[..i + 1] == keys[..i] + [keys[i]];
      BetweenSnoc(keys[..i], keys[i], orbitPath.buckets, start, end);
      var k := keys[i];
      assert BucketOf(orbitPath.buckets, k) == orbitPath.buckets[k];
      assert neos + [] == neos;
      if start.None? {
        BetweenStops(keys, orbitPath.buckets, start, end, i);
        return Err(MissingBound);
      }
      if LessEq(start.value, k) {
        if end.None? {
          BetweenStops(keys, orbitPath.buckets, start, end, i);
          return Err(MissingBound);
        }
        if LessEq(k, end.value) {
          neos := neos + orbitPath.buckets[k];
        }
      }
    }
    assert keys[..|keys|] == keys;
    return Ok(neos);
  }

  /** The range search raises exactly when some key is compared with a
      missing bound: the start is missing (and there is a key), or the end
      is missing and some key is at or after the start. */
  lemma {:induction false} BetweenFails(keys: seq<string>, buckets: map<string, seq<NearEarthObject>>, start: Option<string>, end: Option<string>)
    ensures BetweenIn(keys, buckets, start, end).Err? <==>
      exists k :: k in keys && (start.None? || (LessEq(start.value, k) && end.None?))
    decreases |keys|
  {
    if keys != [] {
      var n := |keys| - 1;
      var prefix := keys[..n];
      BetweenFails(prefix, buckets, start, end);
      assert keys == prefix + [keys[n]];
      if BetweenIn(prefix, buckets, start, end).Err? {
        var k :| k in prefix && (start.None? || (LessEq(start.value, k) && end.None?));
        assert k in keys;
      } else if InRange(start, end, keys[n]).Err? {
        assert keys[n] in keys;
      } else {
        forall k | k in keys ensures !(start.None? || (LessEq(start.value, k) && end.None?)) {
          if k != keys[n] {
            assert k in prefix;
          }
        }
      }
    }
  }

  /** An object is found by the range search exactly when it is filed
      under a key `k` with `start <= k <= end`. */
  lemma {:induction false} BetweenMembers(keys: seq<string>, buckets: map<string, seq<NearEarthObject>>,
                                          start: Option<string>, end: Option<string>, neo: NearEarthObject)
    requires BetweenIn(keys, buckets, start, end).Ok?
    ensures neo in BetweenIn(keys, buckets, start, end).value <==>
      exists k :: k in keys && start.Some? && end.Some? &&
        LessEq(start.value, k) && LessEq(k, end.value) && neo in BucketOf(buckets, k)
    decreases |keys|
  {
    if keys != [] {
      var n := |keys| - 1;
      var prefix := keys[..n];
      var k := keys[n];
      BetweenMembers(prefix, buckets, start, end, neo);
      assert keys == prefix + [k];
      var acc := BetweenIn(prefix, buckets, start, end).value;
      if neo in acc {
        var k' :| k' in prefix && start.Some? && end.Some? &&
          LessEq(start.value, k') && LessEq(k', end.value) && neo in BucketOf(buckets, k');
        assert k' in keys;
      }
      if exists k' :: k' in keys && start.Some? && end.Some? &&
          LessEq(start.value, k') && LessEq(k', end.value) && neo in BucketOf(buckets, k') {
        var k' :| k' in keys && start.Some? && end.Some? &&
          LessEq(start.value, k') && LessEq(k', end.value) && neo in BucketOf(buckets, k');
        if k' != k {
          assert k' in prefix;
        }
      }
    }
  }

  /** A range of one day finds what the equal-date search finds. */
  lemma {:induction false} BetweenOneDay(keys: seq<string>, buckets: map<string, seq<NearEarthObject>>, date: string)
    ensures BetweenIn(keys, buckets, Some(date), Some(date)) == Ok(EqualIn(keys, buckets, date))
    decreases |keys|
  {
    if keys != [] {
      var n := |keys| - 1;
      var k := keys[n];
      BetweenOneDay(keys[..n], buckets, date);
      if LessEq(date, k) && LessEq(k, date) {
        LessEqAntisymmetric(k, date);
      }
      assert InRange(Some(date), Some(date), k) == Ok(k == date);
    }
  }

  /** On the searcher's index: `between(d, d)` is `equals(d)`. */
  lemma DateBetweenOneDay(index: OrbitDates, date: string)
    ensures DateBetween(index, Some(date), Some(date)) == Ok(DateEqual(index, date))
  {
    BetweenOneDay(index.order, index.buckets, date);
  }

  /** Every object a date search finds is filed in the index. */
  lemma DatedWithin(d: DateSearch, index: OrbitDates)
    ensures Dated(d, index).Ok? ==> forall n :: n in Dated(d, index).value ==> n in AllNeos(index)
  {
    match d
    case Equals(date) =>
      DateEqualBucket(index, date);
    case Between(start, end) =>
      if DateBetween(index, start, end).Ok? {
        forall n | n in DateBetween(index, start, end).value ensures n in AllNeos(index) {
          BetweenMembers(index.order, index.buckets, start, end, n);
        }
      }
  }

  /** The date search `get_objects` runs for the query's search type. */
  function Dated(d: DateSearch, index: OrbitDates): Result<seq<NearEarthObject>, SearchError> {
    match d
    case Equals(date) => Ok(DateEqual(index, date))
    case Between(start, end) => DateBetween(index, start, end)
  }

  // ---------------------------------------------------------------------
  // Orbit paths and owners

  /** `return_orbit_paths_from_neos`: the orbits of the objects, object by
      object. */
  function Orbits(neos: seq<NearEarthObject>): seq<OrbitPath>
    reads set i | 0 <= i < |neos| :: neos[i]
    decreases |neos|
  {
    if neos == [] then []
    else Orbits(neos[..|neos| - 1]) + neos[|neos| - 1].orbits
  }

  /** `NEOSearcher.return_orbit_paths_from_neos`. */
  method ReturnOrbitPathsFromNeos(neos: seq<NearEarthObject>) returns (paths: seq<OrbitPath>)
    ensures paths == Orbits(neos)
  {
    paths := [];
    for i := 0 to |neos|
      invariant paths == Orbits(neos[..i])
    {
      assert neos[..i + 1][..i] == neos[..i];
      paths := paths + neos[i].orbits;
    }
    assert neos[..|neos|] == neos;
  }

  /** A path is gathered exactly when it is an orbit of one of the objects. */
  lemma {:induction false} OrbitsMembers(neos: seq<NearEarthObject>, p: OrbitPath)
    ensures p in Orbits(neos) <==> exists n :: n in neos && p in n.orbits
    decreases |neos|
  {
    if neos != [] {
      var k := |neos| - 1;
      OrbitsMembers(neos[..k], p);
      assert neos == neos[..k] + [neos[k]];
      if p in Orbits(neos[..k]) {
        var n :| n in neos[..k] && p in n.orbits;
        assert n in neos;
      }
      if exists n :: n in neos && p in n.orbits {
        var n :| n in neos && p in n.orbits;
        if n != neos[k] {
          assert n in neos[..k];
        }
      }
    }
  }

  /** Every object filed in the date index is the object registered in the
      name index under its name. */
  ghost predicate Registered(index: OrbitDates, neoName: map<string, NearEarthObject>) {
    forall n :: n in AllNeos(index) ==> n.name in neoName && neoName[n.name] == n
  }

  /** The database behind a search is valid, its catalogue is consistent,
      and its name index registers every object of the date index searched. */
  ghost predicate Catalogued(db: NEODatabase, index: OrbitDates)
    reads db, db.neoName.Values
  {
    db.Valid() && CatalogLoad.Consistent(db.Model()) && Registered(index, db.neoName)
  }

  /** A valid database's own date index is registered in its name index,
      so a searcher made from it starts registered. */
  lemma ValidRegistered(db: NEODatabase)
    requires db.Valid()
    ensures Registered(db.orbitDate, db.neoName)
  {
    forall n | n in AllNeos(db.orbitDate) ensures n.name in db.neoName && db.neoName[n.name] == n {
      var d :| d in db.orbitDate.buckets && n in db.orbitDate.buckets[d];
      var i :| 0 <= i < |db.orbitDate.buckets[d]| && db.orbitDate.buckets[d][i] == n;
    }
  }

  /** Loading more rows keeps a searcher's copy of the date index
      registered: the objects registered before stay registered. */
  lemma RegisteredKept(index: OrbitDates, before: map<string, NearEarthObject>, db: NEODatabase)
    requires Registered(index, before) && db.Keeps(before)
    ensures Registered(index, db.neoName)
  {
  }

  /** `neo_name.get(name)`. */
  function Lookup(neoName: map<string, NearEarthObject>, name: string): Option<NearEarthObject> {
    if name in neoName then Some(neoName[name]) else None
  }

  /** `return_neo_from_orbit_path`: the owner of each path, looked up by
      the path's name in the live name index. */
  function Owners(paths: seq<OrbitPath>, neoName: map<string, NearEarthObject>): (owners: seq<Option<NearEarthObject>>)
    ensures |owners| == |paths|
    ensures forall i :: 0 <= i < |paths| ==> (owners[i] == None <==> paths[i].neoName !in neoName)
    ensures forall i :: 0 <= i < |paths| && owners[i].Some? ==>
      paths[i].neoName in neoName && owners[i].value == neoName[paths[i].neoName]
  {
    seq(|paths|, i requires 0 <= i < |paths| => Lookup(neoName, paths[i].neoName))
  }

  // ---------------------------------------------------------------------
  // Filters in `get_objects`

  /** The non-distance filters applied one after the other to the objects;
      distance filters are skipped. */
  function Prefiltered(filters: seq<Filter>, neos: seq<NearEarthObject>): Result<seq<NearEarthObject>, FilterError>
    decreases |filters|
  {
    if filters == [] then Ok(neos)
    else if filters[0].field == Distance then Prefiltered(filters[1..], neos)
    else
      match Filtered(filters[0], neos, NeoAccessor(filters[0].field))
      case Err(e) => Err(e)
      case Ok(kept) => Prefiltered(filters[1..], kept)
  }

  /** The distance filter `get_objects` keeps: each distance filter met
      replaces the one held so far. */
  function LastDistance(filters: seq<Filter>, current: Option<Filter>): Option<Filter>
    decreases |filters|
  {
    if filters == [] then current
    else LastDistance(filters[1..], if filters[0].field == Distance then Some(filters[0]) else current)
  }

  /** Only the last distance filter counts: with none, the one held is kept;
      otherwise it is a distance filter of the list with no distance filter
      after it. */
  lemma {:induction false} LastDistanceIsLast(filters: seq<Filter>, current: Option<Filter>)
    ensures (forall i :: 0 <= i < |filters| ==> filters[i].field != Distance) ==>
      LastDistance(filters, current) == current
    ensures (exists i :: 0 <= i < |filters| && filters[i].field == Distance) ==>
      exists i :: 0 <= i < |filters| && Some(filters[i]) == LastDistance(filters, current) &&
        filters[i].field == Distance &&
        forall j :: i < j < |filters| ==> filters[j].field != Distance
    decreases |filters|
  {
    if filters != [] {
      var rest := filters[1..];
      var next := if filters[0].field == Distance then Some(filters[0]) else current;
      LastDistanceIsLast(rest, next);
      assert forall i :: 0 < i < |filters| ==> filters[i] == rest[i - 1];
      if exists i :: 0 <= i < |rest| && rest[i].field == Distance {
        var i :| 0 <= i < |rest| && Some(rest[i]) == LastDistance(rest, next) &&
          rest[i].field == Distance && forall j :: i < j < |rest| ==> rest[j].field != Distance;
        assert Some(filters[i + 1]) == LastDistance(filters, current);
        forall j | i + 1 < j < |filters| ensures filters[j].field != Distance {
          assert filters[j] == rest[j - 1];
        }
      } else if filters[0].field == Distance {
        forall j | 0 < j < |filters| ensures filters[j].field != Distance {
          assert filters[j] == rest[j - 1];
        }
      } else {
        forall i | 0 <= i < |filters| ensures filters[i].field != Distance {
          if i > 0 {
            assert filters[i] == rest[i - 1];
          }
        }
      }
    }
  }

  /** The objects left by the non-distance filters are exactly the input
      objects that pass every one of them. */
  lemma {:induction false} PrefilteredMembers(filters: seq<Filter>, neos: seq<NearEarthObject>, x: NearEarthObject)
    requires Prefiltered(filters, neos).Ok?
    ensures x in Prefiltered(filters, neos).value <==>
      x in neos && forall g :: g in filters && g.field != Distance ==> Passes(g, NeoAccessor(g.field), x)
    decreases |filters|
  {
    if filters != [] {
      var f := filters[0];
      var rest := filters[1..];
      assert filters == [f] + rest;
      if f.field == Distance {
        PrefilteredMembers(rest, neos, x);
      } else {
        var kept := Filtered(f, neos, NeoAccessor(f.field)).value;
        PrefilteredMembers(rest, kept, x);
        FilteredMembers(f, neos, NeoAccessor(f.field), x);
      }
    }
  }

  /** The non-distance filters raise only on an unknown operator: with
      known operators they always succeed. */
  lemma {:induction false} PrefilteredSucceeds(filters: seq<Filter>, neos: seq<NearEarthObject>)
    requires forall g :: g in filters && g.field != Distance ==> OperatorOf(g.operation).Some?
    ensures Prefiltered(filters, neos).Ok?
    decreases |filters|
  {
    if filters != [] {
      var f := filters[0];
      var rest := filters[1..];
      assert forall g :: g in rest ==> g in filters;
      if f.field == Distance {
        PrefilteredSucceeds(rest, neos);
      } else {
        FilteredFails(f, neos, NeoAccessor(f.field));
        PrefilteredSucceeds(rest, Filtered(f, neos, NeoAccessor(f.field)).value);
      }
    }
  }

  // ---------------------------------------------------------------------
  // The search

  /** What `get_objects` draws its answer from: the dated objects through
      the non-distance filters; with no distance filter, those objects and
      all their orbits; with one, the orbits that pass the last distance
      filter and the owners of those orbits. Both as sets, as `set()`
      leaves them. */
  function Pools(q: Selectors, index: OrbitDates, neoName: map<string, NearEarthObject>): Result<Found, SearchError>
    reads AllNeos(index)
  {
    match Dated(q.dateSearch, index)
    case Err(e) => Err(e)
    case Ok(dated) =>
      match Prefiltered(q.filters, dated)
      case Err(e) => Err(BadFilter(e))
      case Ok(neos) =>
        DatedWithin(q.dateSearch, index);
        PrefilteredWithin(q.filters, dated);
        match Survivors(neos, LastDistance(q.filters, None), neoName)
        case Err(e) => Err(BadFilter(e))
        case Ok(found) => Ok(found)
  }

  /** The tail of `get_objects` on the filtered objects: their orbits, and
      with a distance filter the orbits that pass it and their owners; both
      de-duplicated. */
  function Survivors(neos: seq<NearEarthObject>, distance: Option<Filter>, neoName: map<string, NearEarthObject>)
    : Result<Found, FilterError>
    reads set i | 0 <= i < |neos| :: neos[i]
  {
    var orbits := Orbits(neos);
    match distance
    case None => Ok(Found(set n | n in neos :: Some(n), set p | p in orbits))
    case Some(d) =>
      match Filtered(d, orbits, PathAccessor(d.field))
      case Err(e) => Err(e)
      case Ok(kept) => Ok(Found(set o | o in Owners(kept, neoName), set p | p in kept))
  }

  /** The tail of `get_objects`: gather the orbits, apply the distance
      filter if any and take the owners back, then `set()` both lists. */
  method Gather(neos: seq<NearEarthObject>, distance: Option<Filter>, neoName: map<string, NearEarthObject>)
    returns (r: Result<Found, FilterError>)
    ensures r == Survivors(neos, distance, neoName)
  {
    var orbits := ReturnOrbitPathsFromNeos(neos);
    var filteredOrbits := orbits;
    var filteredNeos := seq(|neos|, i requires 0 <= i < |neos| => Some(neos[i]));
    if distance.Some? {
      var kept := Apply(distance.value, orbits, PathAccessor(distance.value.field));
      if kept.Err? {
        return Err(kept.error);
      }
      filteredOrbits := kept.value;
      filteredNeos := Owners(filteredOrbits, neoName);
    } else {
      assert (set o | o in filteredNeos) == set n | n in neos :: Some(n) by {
        forall n | n in neos ensures Some(n) in filteredNeos {
          var i :| 0 <= i < |neos| && neos[i] == n;
          assert filteredNeos[i] == Some(n);
        }
      }
    }
    return Ok(Found(set o | o in filteredNeos, set p | p in filteredOrbits));
  }

  /** The filtered objects are among the objects filtered. */
  lemma PrefilteredWithin(filters: seq<Filter>, neos: seq<NearEarthObject>)
    ensures Prefiltered(filters, neos).Ok? ==> forall x :: x in Prefiltered(filters, neos).value ==> x in neos
  {
    if Prefiltered(filters, neos).Ok? {
      forall x | x in Prefiltered(filters, neos).value ensures x in neos {
        PrefilteredMembers(filters, neos, x);
      }
    }
  }

  /** Python's `len(xs[:n])` for a list of length `len`: a negative `n`
      counts from the end. */
  function SliceLength(len: nat, n: int): (r: nat)
    ensures r <= len
    ensures 0 <= n <= len ==> r == n
    ensures n >= len ==> r == len
  {
    if n >= 0 then (if n < len then n else len)
    else if len + n > 0 then len + n else 0
  }

  /** `xs` holds `SliceLength(|s|, n)` distinct elements of `s`, as
      `list(s)[:n]` does for some order of the set. */
  ghost predicate Sample<T>(xs: seq<T>, s: set<T>, n: int) {
    && |xs| == SliceLength(|s|, n)
    && (forall i :: 0 <= i < |xs| ==> xs[i] in s)
    && (forall i, j :: 0 <= i < j < |xs| ==> xs[i] != xs[j])
  }

  /** `list(s)[:n]`: the set in some order, cut to length. */
  method Take<T>(s: set<T>, n: int) returns (xs: seq<T>)
    ensures Sample(xs, s, n)
  {
    var count := SliceLength(|s|, n);
    var rest := s;
    xs := [];
    while |xs| < count
      invariant rest <= s && |rest| + |xs| == |s| && |xs| <= count
      invariant forall i :: 0 <= i < |xs| ==> xs[i] in s && xs[i] !in rest
      invariant forall i, j :: 0 <= i < j < |xs| ==> xs[i] != xs[j]
      decreases count - |xs|
    {
      var x :| x in rest;
      xs := xs + [x];
      rest := rest - {x};
    }
  }

  /** The answer for the query's return kind: orbit paths for `OrbitPath`,
      objects for anything else. */
  ghost predicate Drawn(a: Answer, q: Selectors, found: Found) {
    if q.returnObject == Some(PathKind) then a.Paths? && Sample(a.paths, found.paths, q.number)
    else a.Objects? && Sample(a.neos, found.neos, q.number)
  }

  /** The date search of `get_objects`, chosen by the search type. */
  method SearchByDate(d: DateSearch, index: OrbitDates) returns (r: Result<seq<NearEarthObject>, SearchError>)
    ensures r == Dated(d, index)
  {
    match d {
      case Equals(date) =>
        var neos := ReturnDateSearchEqual(index, date);
        return Ok(neos);
      case Between(start, end) =>
        r := ReturnDateSearchBetween(index, start, end);
    }
  }

  /** The filter loop of `get_objects`: non-distance filters are applied
      to the objects in turn, each distance filter replaces the one kept. */
  method ApplyFilters(filters: seq<Filter>, dated: seq<NearEarthObject>)
    returns (r: Result<seq<NearEarthObject>, FilterError>, distance: Option<Filter>)
    ensures r == Prefiltered(filters, dated)
    ensures r.Ok? ==> distance == LastDistance(filters, None)
  {
    var neos := dated;
    distance := None;
    for i := 0 to |filters|
      invariant Prefiltered(filters, dated) == Prefiltered(filters[i..], neos)
      invariant LastDistance(filters, None) == LastDistance(filters[i..], distance)
    {
      var f := filters[i];
      assert filters[i..][1..] == filters[i + 1..];
      if f.field == Distance {
        distance := Some(f);
        continue;
      }
      var kept := Apply(f, neos, NeoAccessor(f.field));
      if kept.Err? {
        return Err(kept.error), distance;
      }
      neos := kept.value;
    }
    assert filters[|filters|..] == [];
    return Ok(neos), distance;
  }

  class NEOSearcher {
    const db: NEODatabase
    /** `dict(db.orbit_date)`, taken when the searcher is made. */
    const orbitDate: OrbitDates
    /** The search type of the last query. */
    var dateSearch: Option<string>

    constructor (db: NEODatabase)
      ensures this.db == db && orbitDate == db.orbitDate && dateSearch == None
    {
      this.db := db;
      orbitDate := db.orbitDate;
      dateSearch := None;
    }

    /** The date search, the filter loop and the gathering of
        `get_objects`, before the pools are cut to length. */
    method Find(q: Selectors) returns (found: Result<Found, SearchError>)
      ensures found == Pools(q, orbitDate, db.neoName)
    {
      var dated := SearchByDate(q.dateSearch, orbitDate);
      if dated.Err? {
        return Err(dated.error);
      }
      var filtered, distance := ApplyFilters(q.filters, dated.value);
      if filtered.Err? {
        return Err(BadFilter(filtered.error));
      }
      DatedWithin(q.dateSearch, orbitDate);
      PrefilteredWithin(q.filters, dated.value);
      var gathered := Gather(filtered.value, distance, db.neoName);
      if gathered.Err? {
        return Err(BadFilter(gathered.error));
      }
      return Ok(gathered.value);
    }

    /** `NEOSearcher.get_objects`: records the search type, then answers
        from the pools, or raises what they raise. */
    method GetObjects(q: Selectors) returns (r: Result<Answer, SearchError>)
      modifies this`dateSearch
      ensures dateSearch == Some(TypeName(q.dateSearch))
      ensures r.Err? <==> Pools(q, orbitDate, db.neoName).Err?
      ensures r.Err? ==> r.error == Pools(q, orbitDate, db.neoName).error
      ensures r.Ok? ==> Drawn(r.value, q, Pools(q, orbitDate, db.neoName).value)
      ensures r.Ok? && r.value.Objects? && Catalogued(db, orbitDate) ==> forall o :: o in r.value.neos ==> o.Some?
    {
      dateSearch := Some(TypeName(q.dateSearch));
      var found := Find(q);
      // The pools read the objects of the date index; they stay what they
      // are across the call to `Take` below, which changes nothing.
      assert forall n :: n in AllNeos(orbitDate) ==> allocated(n);
      if found.Err? {
        return Err(found.error);
      }
      var neoPool := found.value.neos;
      var pathPool := found.value.paths;
      if q.returnObject == Some(PathKind) {
        var taken := Take(pathPool, q.number);
        return Ok(Paths(taken));
      }
      var taken := Take(neoPool, q.number);
      if Catalogued(db, orbitDate) {
        SampleOwned(q, db, orbitDate, taken);
      }
      return Ok(Objects(taken));
    }
  }

  // ---------------------------------------------------------------------
  // What the search promises

  /** With no distance filter, the paths found are exactly the orbits of
      the objects found, and the objects found are the dated objects that
      pass every filter. */
  lemma PoolsWithoutDistance(q: Selectors, index: OrbitDates, neoName: map<string, NearEarthObject>, dated: seq<NearEarthObject>)
    requires Dated(q.dateSearch, index) == Ok(dated)
    requires LastDistance(q.filters, None).None? && Pools(q, index, neoName).Ok?
    ensures var found := Pools(q, index, neoName).value;
      (forall p :: p in found.paths <==> exists n :: Some(n) in found.neos && p in n.orbits) &&
      (forall o :: o in found.neos <==> (o.Some? && o.value in dated &&
        forall g :: g in q.filters && g.field != Distance ==> Passes(g, NeoAccessor(g.field), o.value)))
  {
    var neos := Prefiltered(q.filters, dated).value;
    var found := Pools(q, index, neoName).value;
    forall p ensures p in found.paths <==> exists n :: Some(n) in found.neos && p in n.orbits {
      OrbitsMembers(neos, p);
      if p in found.paths {
        var n :| n in neos && p in n.orbits;
        assert Some(n) in found.neos;
      }
      if exists n :: Some(n) in found.neos && p in n.orbits {
        var n :| Some(n) in found.neos && p in n.orbits;
        assert n in neos;
      }
    }
    forall o ensures o in found.neos <==> (o.Some? && o.value in dated &&
        forall g :: g in q.filters && g.field != Distance ==> Passes(g, NeoAccessor(g.field), o.value)) {
      if o.Some? {
        PrefilteredMembers(q.filters, dated, o.value);
      }
    }
  }

  /** With a distance filter, the paths found are the orbits of the
      filtered objects that pass the last distance filter, and the objects
      found are the owners, looked up by name, of those paths. */
  lemma PoolsWithDistance(q: Selectors, index: OrbitDates, neoName: map<string, NearEarthObject>, neos: seq<NearEarthObject>)
    requires Dated(q.dateSearch, index).Ok? && Prefiltered(q.filters, Dated(q.dateSearch, index).value) == Ok(neos)
    requires LastDistance(q.filters, None).Some? && Pools(q, index, neoName).Ok?
    ensures var found := Pools(q, index, neoName).value;
      var d := LastDistance(q.filters, None).value;
      (forall p :: p in found.paths <==>
        (exists n :: n in neos && p in n.orbits) && Passes(d, PathAccessor(d.field), p)) &&
      (forall o :: o in found.neos <==> exists p :: p in found.paths && o == Lookup(neoName, p.neoName))
  {
    var found := Pools(q, index, neoName).value;
    var d := LastDistance(q.filters, None).value;
    var orbits := Orbits(neos);
    var kept := Filtered(d, orbits, PathAccessor(d.field)).value;
    forall p ensures p in found.paths <==> (exists n :: n in neos && p in n.orbits) && Passes(d, PathAccessor(d.field), p) {
      OrbitsMembers(neos, p);
      FilteredMembers(d, orbits, PathAccessor(d.field), p);
    }
    forall o ensures o in found.neos <==> exists p :: p in found.paths && o == Lookup(neoName, p.neoName) {
      var owners := Owners(kept, neoName);
      if o in owners {
        var i :| 0 <= i < |owners| && owners[i] == o;
        assert kept[i] in found.paths;
      }
      if exists p :: p in found.paths && o == Lookup(neoName, p.neoName) {
        var p :| p in found.paths && o == Lookup(neoName, p.neoName);
        var i :| 0 <= i < |kept| && kept[i] == p;
        assert owners[i] == o;
      }
    }
  }

  /** With a distance filter, over a consistent catalogue whose name index
      registers every object of the searched date index: no `None` is
      found, and an object is found exactly when it passed the other
      filters and at least one of its orbits passes the distance filter.
      So the distance filter drops an object only when all of its orbits
      fail it. */
  lemma PoolsWithDistanceOwners(q: Selectors, db: NEODatabase, index: OrbitDates, neos: seq<NearEarthObject>)
    requires Catalogued(db, index)
    requires Dated(q.dateSearch, index).Ok? && Prefiltered(q.filters, Dated(q.dateSearch, index).value) == Ok(neos)
    requires LastDistance(q.filters, None).Some? && Pools(q, index, db.neoName).Ok?
    ensures var found := Pools(q, index, db.neoName).value;
      var d := LastDistance(q.filters, None).value;
      && None !in found.neos
      && forall n :: Some(n) in found.neos <==>
           n in neos && exists p :: p in n.orbits && Passes(d, PathAccessor(d.field), p)
  {
    var dated := Dated(q.dateSearch, index).value;
    var found := Pools(q, index, db.neoName).value;
    var d := LastDistance(q.filters, None).value;
    PoolsWithDistance(q, index, db.neoName, neos);
    DatedWithin(q.dateSearch, index);
    PrefilteredWithin(q.filters, dated);
    forall o | o in found.neos
      ensures o.Some? && o.value in neos && exists p :: p in o.value.orbits && Passes(d, PathAccessor(d.field), p)
    {
      var p :| p in found.paths && o == Lookup(db.neoName, p.neoName);
      var n :| n in neos && p in n.orbits;
      assert n in dated;
      OrbitNamesHolder(db, n.name, p);
    }
    forall n | n in neos && exists p :: p in n.orbits && Passes(d, PathAccessor(d.field), p)
      ensures Some(n) in found.neos
    {
      var p :| p in n.orbits && Passes(d, PathAccessor(d.field), p);
      assert p in found.paths;
      assert n in dated;
      OrbitNamesHolder(db, n.name, p);
      assert Lookup(db.neoName, p.neoName) == Some(n);
    }
  }

  /** Over a consistent catalogue whose name index registers every object
      of the searched date index, `get_objects` never finds `None`, with or
      without a distance filter. */
  lemma PoolsOwned(q: Selectors, db: NEODatabase, index: OrbitDates)
    requires Catalogued(db, index)
    requires Pools(q, index, db.neoName).Ok?
    ensures None !in Pools(q, index, db.neoName).value.neos
  {
    var dated := Dated(q.dateSearch, index).value;
    if LastDistance(q.filters, None).None? {
      PoolsWithoutDistance(q, index, db.neoName, dated);
    } else {
      PoolsWithDistanceOwners(q, db, index, Prefiltered(q.filters, dated).value);
    }
  }

  /** What `get_objects` returns is drawn from the pool, so it holds no
      `None` either. */
  lemma SampleOwned(q: Selectors, db: NEODatabase, index: OrbitDates, xs: seq<Option<NearEarthObject>>)
    requires Catalogued(db, index)
    requires Pools(q, index, db.neoName).Ok?
    requires Sample(xs, Pools(q, index, db.neoName).value.neos, q.number)
    ensures forall o :: o in xs ==> o.Some?
  {
    PoolsOwned(q, db, index);
  }
}

=== FILE: text.dfy ===
/** The two operations on Python `str` the query pipeline relies on: the
    ordering used by `<`, `<=`, `>`, `>=` (lexicographic on code points) and
    `str.split` on a one-character separator. */
module Text {

  /** `a < b` on Python strings. */
  predicate Less(a: string, b: string)
    decreases |a|
  {
    if a == [] then b != []
    else if b == [] then false
    else a[0] < b[0] || (a[0] == b[0] && Less(a[1..], b[1..]))
  }

  /** `a <= b` on Python strings. */
  predicate LessEq(a: string, b: string) {
    Less(a, b) || a == b
  }

  lemma {:induction false} LessIrreflexive(a: string)
    ensures !Less(a, a)
    decreases |a|
  {
    if a != [] {
      LessIrreflexive(a[1..]);
    }
  }

  lemma {:induction false} LessAsymmetric(a: string, b: string)
    ensures !(Less(a, b) && Less(b, a))
    decreases |a|
  {
    if a != [] && b != [] && a[0] == b[0] {
      LessAsymmetric(a[1..], b[1..]);
    }
  }

  lemma {:induction false} LessTotal(a: string, b: string)
    ensures Less(a, b) || a == b || Less(b, a)
    decreases |a|
  {
    if a != [] && b != [] && a[0] == b[0] {
      LessTotal(a[1..], b[1..]);
      if a[1..] == b[1..] {
        assert a == [a[0]] + a[1..] && b == [b[0]] + b[1..];
      }
    }
  }

  lemma {:induction false} LessTransitive(a: string, b: string, c: string)
    requires Less(a, b) && Less(b, c)
    ensures Less(a, c)
    decreases |a|
  {
    if a != [] && a[0] == b[0] && b[0] == c[0] {
      LessTransitive(a[1..], b[1..], c[1..]);
    }
  }

  /** `<=` is antisymmetric, so `d <= k <= d` holds of `k == d` alone. */
  lemma LessEqAntisymmetric(a: string, b: string)
    requires LessEq(a, b) && LessEq(b, a)
    ensures a == b
  {
    LessAsymmetric(a, b);
  }

  /** Python's `a >= b` on strings is `not (a < b)`. */
  lemma GreaterEqIsNotLess(a: string, b: string)
    ensures (Less(b, a) || a == b) <==> !Less(a, b)
  {
    LessTotal(a, b);
    LessAsymmetric(a, b);
    LessIrreflexive(a);
  }

  /** `sep.join(pieces)`. */
  function Join(pieces: seq<string>, sep: char): string
    decreases |pieces|
  {
    if pieces == [] then ""
    else if |pieces| == 1 then pieces[0]
    else pieces[0] + [sep] + Join(pieces[1..], sep)
  }

  /** `s.split(sep)`: the pieces between separators, at least one of them;
      joining them back gives `s`. */
  function Split(s: string, sep: char): (pieces: seq<string>)
    ensures |pieces| >= 1
    ensures forall i :: 0 <= i < |pieces| ==> sep !in pieces[i]
    ensures Join(pieces, sep) == s
    decreases |s|
  {
    if s == [] then [""]
    else
      var rest := Split(s[1..], sep);
      if s[0] == sep then
        assert s == [sep] + s[1..];
        [""] + rest
      else
        var r := [[s[0]] + rest[0]] + rest[1..];
        assert r[1..] == rest[1..];
        assert s == [s[0]] + s[1..];
        r
  }

  lemma {:induction false} SplitPrefix(p: string, t: string, sep: char)
    requires sep !in p
    ensures Split(p + t, sep) == [p + Split(t, sep)[0]] + Split(t, sep)[1..]
    decreases |p|
  {
    var u := Split(t, sep);
    if p != [] {
      assert (p + t)[0] == p[0] && (p + t)[1..] == p[1..] + t;
      SplitPrefix(p[1..], t, sep);
      var rest := Split(p[1..] + t, sep);
      assert rest[0] == p[1..] + u[0] && rest[1..] == u[1..];
      assert [p[0]] + (p[1..] + u[0]) == p + u[0];
    } else {
      assert p + t == t && p + u[0] == u[0];
      assert u == [u[0]] + u[1..];
    }
  }

  lemma SplitAtSeparator(u: string, sep: char)
    ensures Split([sep] + u, sep) == [""] + Split(u, sep)
  {
    assert ([sep] + u)[1..] == u;
  }

  /** Splitting undoes joining when no piece holds the separator. */
  lemma {:induction false} SplitJoin(pieces: seq<string>, sep: char)
    requires |pieces| >= 1
    requires forall i :: 0 <= i < |pieces| ==> sep !in pieces[i]
    ensures Split(Join(pieces, sep), sep) == pieces
    decreases |pieces|
  {
    if |pieces| > 1 {
      var rest := Join(pieces[1..], sep);
      var tail := [sep] + rest;
      assert Join(pieces, sep) == pieces[0] + tail;
      SplitPrefix(pieces[0], tail, sep);
      SplitAtSeparator(rest, sep);
      SplitJoin(pieces[1..], sep);
      var st := Split(tail, sep);
      assert st == [""] + pieces[1..];
      assert st[0] == "" && st[1..] == pieces[1..];
      assert pieces[0] + "" == pieces[0];
      assert pieces == [pieces[0]] + pieces[1..];
    } else {
      SplitPrefix(pieces[0], "", sep);
      assert pieces[0] + "" == pieces[0];
    }
  }

  /** `s.split(sep)` has a second piece exactly when `sep` occurs in `s`. */
  lemma SplitPieces(s: string, sep: char)
    ensures |Split(s, sep)| >= 2 <==> sep in s
  {
    var pieces := Split(s, sep);
    if |pieces| >= 2 {
      assert s == pieces[0] + [sep] + Join(pieces[1..], sep);
      assert s[|pieces[0]|] == sep;
    }
  }
}

=== FILE: wrappers.dfy ===
/** Option and Result, the two failure-carrying values the model uses for
    Python's `None` and for the exceptions the source raises. */
module Wrappers {

  datatype Option<+T> = None | Some(value: T)

  datatype Result<+T, +E> = Ok(value: T) | Err(error: E)
}
